=== FILE: README.md ===
# Loan application site — a Dafny model of its logic

The site lets a visitor price a loan, apply for it through a three-step form and
upload an identity document. This project models the logic behind those pages
and the two API handlers, and proves what they promise:

- **Home page** (`Home`): `loanData` decides whether the calculator or the
  application form is rendered. `handleApply` stores the calculator's triple and
  `onBack` clears it. Switching views unmounts one component and mounts the
  other, so local state does not survive: Apply always opens a fresh form, and
  Back from the first step shows the calculator again at 10000 / 24 / EUR.
- **Loan calculator** (`Calculator`):
  - the five-currency rate table, with the fallback to its first entry;
  - monthly rate = annual rate / 12;
  - the zero-rate branch and the amortisation formula, over exact `real`s;
  - the total payback, and the sliders' ranges;
  - the Apply button handing its triple to the page.
- **Application form** (`Wizard`):
  - steps 0 → 1 → 2 → 3, with Next gated per step by a group of fields;
  - Back, which leaves through `onBack` on the first step;
  - the file picker;
  - `onSubmit`: an optional upload, then the submit, with step 3 reached only
    when both succeed;
  - the body the form sends.
- **API contract** (`Api`):
  - the two endpoints and the error body shapes;
  - `buildUrl`, both as written and with values inserted verbatim.
- **Server** (`Server`):
  - the submit handler's mapping of a parse outcome to 201 / 400 / 500;
  - the upload handler's response;
  - the 5 MiB upload cap;
  - a store that assigns serial ids and insert times.
- **Record schema** (`Schema`):
  - the `loan_applications` columns: which are required, nullable, defaulted, or
    omitted from the insert schema;
  - the insert parse, which reports issues in column order;
  - the row the store writes.
- **Client and server together** (`Flow`): what the server makes of the exact
  body the form sends.

Supporting modules: `Wrappers` (`Option`, `Result`) and `Strings` (first
occurrence, JavaScript's `String.prototype.replace` with its `$` patterns,
`join`, `String(n)` for integers).

Validation rules the code leaves to libraries are parameters. `Wizard.Rules`
holds the client's per-field text check and the `Number()` coercion of a typed
income. `Schema.Validator` holds any zod refinement beyond the column type, and
the issue messages. The store's success or failure, the clock, and the upload's
outcome are inputs too.

Three behaviours of the code as written are worth knowing. All three are proved.

- The form only asks that income coerce to at least 1, but the `income` column is
  an integer. A fractional income such as 1500.5 passes every step of the form.
  The server then refuses it with 400 naming `income` (`Flow.FractionalIncomeIsRefused`).
- Without a chosen file the form sends `identityFileUrl: ""`. It is stored as the
  empty string, not as null (`Flow.FormSubmissionIsStored`).
- The form's default values include `status: "pending"`, but the validated values
  passed to `onSubmit` do not, because the form schema does not know `status`.
  Whatever a body says about `status`, `id` or `createdAt`, the insert schema drops it
  (`Schema.ClientCannotSetServerFields`).

## Model

| member | source | states |
|---|---|---|
| Home.ViewOf | client/src/pages/Home.tsx:102-109 | the form is rendered exactly when `loanData` is set, and it receives that triple as `initialData` |
| Home.InitialShowsCalculator | client/src/pages/Home.tsx:9 | with the initial null `loanData` the calculator is shown |
| Home.HandleApply | client/src/pages/Home.tsx:11-15 | after `handleApply(a, d, c)` the form is shown with exactly the triple (a, d, c) |
| Home.OnBack | client/src/pages/Home.tsx:105 | after the form's `onBack` the calculator is shown |
| Home.Mount | client/src/pages/Home.tsx:102-109 | rendering a page state afresh mounts the calculator at its initial state, or a form initialised from `loanData` |
| Home.AppStep | client/src/pages/Home.tsx:102-109 | the view changes from calculator to form only through Apply, and the form opens freshly initialised; it changes back only through Back on step 0, and the calculator reappears at its initial state |
| Home.ApplyOpensFreshForm | client/src/components/LoanCalculator.tsx:149 | Apply opens a form whose wizard is freshly initialised from the calculator's current triple |
| Home.BackRestartsCalculator | client/src/pages/Home.tsx:105 | Back on the form's first step shows the calculator again, back at 10000 / 24 / EUR |
| Home.AppStepKeepsInv | client/src/pages/Home.tsx:102-109 | every user action keeps the calculator inside its slider ranges with a currency from the table, and keeps the shown form's triple one the calculator could produce: amount, duration and currency alike |
| Home.AppRunKeepsInv | client/src/pages/Home.tsx:102-109 | over any sequence of actions the page invariant holds on every screen reached |
| Home.AppInitKeepsInv | client/src/pages/Home.tsx:9 | the first screen is the calculator at its initial state, and the invariant holds after any sequence of actions from it |
| Calculator.Find | client/src/components/LoanCalculator.tsx:32 | `find` yields nothing exactly when no entry has the code, and otherwise the first entry that has it |
| Calculator.Selected | client/src/components/LoanCalculator.tsx:32 | the selected entry is a table entry, with the requested code when one exists and the first entry otherwise |
| Calculator.CodesDistinct | client/src/components/LoanCalculator.tsx:17-23 | the five currency codes are pairwise distinct |
| Calculator.SelectedEntry | client/src/components/LoanCalculator.tsx:17-32 | looking up the code of any table entry selects that entry |
| Calculator.RateTable | client/src/components/LoanCalculator.tsx:17-33 | the annual rate is EUR 0.045, USD 0.052, GBP 0.048, CHF 0.035 or JPY 0.025, and 0.045 for any other code |
| Calculator.UnknownCodeFallsBack | client/src/components/LoanCalculator.tsx:32 | a code outside the table selects the first entry |
| Calculator.MonthlyRatePositive | client/src/components/LoanCalculator.tsx:33-34 | the monthly rate is positive and twelve of them make the annual rate, so the zero-rate branch is never taken from the table |
| Calculator.MonthlyPayment | client/src/components/LoanCalculator.tsx:41-45 | at a zero rate n payments add up to the principal; at a positive rate the payment solves the annuity equation `m·((1+i)^n − 1) = p·i·(1+i)^n` |
| Calculator.PaymentEquation | client/src/components/LoanCalculator.tsx:44 | at a positive rate the denominator `(1+i)^n − 1` is positive, and the payment solves `m·((1+i)^n − 1) = p·i·(1+i)^n` |
| Calculator.BalanceClosedForm | client/src/components/LoanCalculator.tsx:36-44 | the balance owed after k months of interest then payment has the closed form `i·B_k = p·i·(1+i)^k − m·((1+i)^k − 1)` |
| Calculator.BalanceWithoutInterest | client/src/components/LoanCalculator.tsx:41-42 | without interest the balance after k payments is `p − k·m` |
| Calculator.PaymentRetiresLoan | client/src/components/LoanCalculator.tsx:41-45 | in both branches, paying the computed payment for n months leaves exactly nothing owed |
| Calculator.GrowthBound | client/src/components/LoanCalculator.tsx:44 | `(1+i)^n − 1 < n·i·(1+i)^n` for a positive rate and n ≥ 1 |
| Calculator.ZeroRateSharesPrincipal | client/src/components/LoanCalculator.tsx:41-42 | at a zero rate the payment is positive and n payments add up to the principal exactly |
| Calculator.InterestRaisesTotal | client/src/components/LoanCalculator.tsx:44 | at a positive rate the payment is positive and n payments add up to more than the principal |
| Calculator.TotalExceeds | client/src/components/LoanCalculator.tsx:44 | any solution of the amortisation equation at a positive rate repays more than the principal over n months |
| Calculator.PaymentsCoverPrincipal | client/src/components/LoanCalculator.tsx:41-45 | the payment is positive; total = principal at a zero rate and total > principal at a positive rate |
| Calculator.PaymentIncreasesWithAmount | client/src/components/LoanCalculator.tsx:41-45 | a larger amount gives a strictly larger monthly payment, in both branches |
| Calculator.PaymentDecreasesWithDuration | client/src/components/LoanCalculator.tsx:41-45 | one more month gives a strictly smaller monthly payment, in both branches |
| Calculator.Step | client/src/components/LoanCalculator.tsx:67-149 | each slider or select sets exactly its own value, and Apply changes nothing and hands out the current (amount, duration, currency) unchanged |
| Calculator.Enabled | client/src/components/LoanCalculator.tsx:67-120 | the amount slider offers 1000..100000 in steps of 500, the duration slider 6..60, and the select only codes that select their own table entry |
| Calculator.StepKeepsValid | client/src/components/LoanCalculator.tsx:67-120 | the enabled controls keep amount in 1000..100000 in steps of 500, duration in 6..60, and the currency one of the table's codes |
| Calculator.InitialIsValid | client/src/components/LoanCalculator.tsx:26-28 | the initial 10000 / 24 / EUR lies inside the slider ranges, and EUR is a code of the table |
| Calculator.ValidCurrencyIsListed | client/src/components/LoanCalculator.tsx:28-81 | the currency of any state the controls reach is one of EUR, USD, GBP, CHF and JPY, and selects its own table entry rather than the fallback |
| Calculator.QuoteFor | client/src/components/LoanCalculator.tsx:143 | the total payback shown is the monthly payment times the duration, both positive, and the total exceeds the amount |
| Calculator.QuoteOf | client/src/components/LoanCalculator.tsx:31-47 | for every slider position and currency the payment is positive and the total payback exceeds the amount |
| Calculator.QuoteRetiresLoan | client/src/components/LoanCalculator.tsx:31-47 | the quoted payment, made for the chosen duration at the currency's monthly rate, pays the loan off exactly |
| Wizard.Init | client/src/components/ApplicationForm.tsx:35-57 | a fresh form is at step 0 with no file, the given triple, income 0, `bank_transfer`, an empty IBAN and terms not accepted |
| Wizard.FieldValid | client/src/components/ApplicationForm.tsx:21-28 | amount and duration always pass `z.coerce.number()`; a numeric income passes exactly when it is at least 1; the terms pass exactly when accepted |
| Wizard.Trigger | client/src/components/ApplicationForm.tsx:88-93 | `trigger` passes exactly when every named field validates, so it always passes on a form the whole schema accepts |
| Wizard.FullValid | client/src/components/ApplicationForm.tsx:21-28 | a form the whole schema accepts has the terms accepted and an income that coerces to at least 1, so never the default 0 |
| Wizard.FreshFormStaysOnPersonalInfo | client/src/components/ApplicationForm.tsx:21-22 | with the default income 0 a fresh form fails the minimum of 1: Next leaves it unchanged and the form is not valid |
| Wizard.NextStep | client/src/components/ApplicationForm.tsx:87-98 | Next advances from step 0 exactly when first name, last name, e-mail and income validate, and from step 1 exactly when payment method and IBAN validate; otherwise nothing changes |
| Wizard.PrevStep | client/src/components/ApplicationForm.tsx:100-103 | Back at step 0 calls `onBack` and changes nothing; at a later step it goes back exactly one step; values and file are kept |
| Wizard.OnFileChange | client/src/components/ApplicationForm.tsx:60-64 | choosing files keeps the first one; an empty selection keeps the earlier choice |
| Wizard.Submit | client/src/components/ApplicationForm.tsx:66-85 | step 3 is reached exactly when the form validates, the upload (if a file was chosen) succeeds and the submit succeeds; otherwise nothing changes; the body sent carries the upload's url, or "" without a file |
| Wizard.Payload | client/src/components/ApplicationForm.tsx:75-78 | the body sent holds `termsAccepted: true` and no `status`, `id` or `createdAt` key |
| Wizard.SentBodyCarriesUploadUrl | client/src/components/ApplicationForm.tsx:68-78 | a body that is sent holds the upload's url or "", `termsAccepted` true and an income of at least 1 |
| Wizard.SuccessNeedsTermsAndIncome | client/src/components/ApplicationForm.tsx:21-28 | reaching step 3 requires terms accepted and an income that coerces to at least 1 |
| Wizard.Dispatch | client/src/components/ApplicationForm.tsx:100-103 | an action hands control to `onBack` exactly when it is Back on step 0 |
| Wizard.Enabled | client/src/components/ApplicationForm.tsx:303-333 | no control acts on step 3; Back acts on every input step; Next is offered exactly on steps 0 and 1 and Submit exactly on step 2, never both |
| Wizard.InitEstablishesInv | client/src/components/ApplicationForm.tsx:44-57 | a fresh form holds the calculator's triple and `bank_transfer` at a step within 0..3 |
| Wizard.DispatchKeepsInv | client/src/components/ApplicationForm.tsx:312-318 | every enabled action keeps the step within 0..3, the triple unchanged and the payment method `bank_transfer`; Next never goes beyond step 2 |
| Wizard.SuccessIsTerminal | client/src/components/ApplicationForm.tsx:105-122 | on the success view no form control is rendered, so no action applies |
| Wizard.ReachSuccessOnlyBySubmit | client/src/components/ApplicationForm.tsx:66-85 | the only action that reaches step 3 is a Submit whose upload (if any) and submit both succeeded on a valid form |
| Wizard.BackKeepsValues | client/src/components/ApplicationForm.tsx:100-103 | Back never changes the entered values or the chosen file |
| Wizard.RunKeepsInv | client/src/components/ApplicationForm.tsx:87-103 | the form invariant holds after any sequence of actions |
| Wizard.SuccessIsFinal | client/src/components/ApplicationForm.tsx:105-122 | once at step 3 the form stays there, whatever the user does |
| Api.BuildUrl | shared/routes.ts:49-51 | without parameters, or with none, the path comes back unchanged |
| Api.BuildUrlAsWritten | shared/routes.ts:49-59 | without parameters the path comes back unchanged, and when no value contains `$` the result equals verbatim insertion |
| Api.SubstituteAsWritten | shared/routes.ts:53-54 | one step as written leaves the url unchanged when `:key` is absent, and equals verbatim insertion when `String(value)` has no `$` |
| Api.ApplyAsWritten | shared/routes.ts:52-56 | with no entries the url is unchanged, and an entry whose placeholder is absent is skipped |
| Api.SubstituteFirstOccurrence | shared/routes.ts:53-54 | an absent placeholder leaves the url unchanged; otherwise exactly its first occurrence is replaced by `String(value)` |
| Api.ApplyInEntryOrder | shared/routes.ts:52-56 | in the corrected `buildUrl`, parameters are applied in entry order, each to the result of the ones before it |
| Api.AsWrittenInEntryOrder | shared/routes.ts:52-56 | as written, parameters are applied in entry order, each `replace` acting on the result of the ones before it, whatever the values hold |
| Api.AbsentPlaceholderIsIgnored | shared/routes.ts:53 | in the corrected `buildUrl`, a parameter whose placeholder is not in the running url changes nothing |
| Api.AsWrittenAbsentPlaceholderIsIgnored | shared/routes.ts:53 | as written, a parameter whose placeholder is not in the running url changes nothing, even when its value holds `$` |
| Api.SubstituteAtFirst | shared/routes.ts:53-54 | in the corrected `buildUrl`, the placeholder found first, at position k, is the one replaced, by `String(value)` verbatim |
| Api.AsWrittenAtFirst | shared/routes.ts:53-54 | as written, the placeholder found first, at position k, is the one replaced, by `String(value)` with its `$` patterns expanded |
| Api.AsWrittenFirstOccurrence | shared/routes.ts:53-54 | as written, an absent placeholder leaves the url unchanged; otherwise exactly its first occurrence is replaced by the expansion of `String(value)` |
| Api.FirstPlaceholderAt | shared/routes.ts:53 | an occurrence of `:key` with no `:` before it has no earlier occurrence, so it is the one `includes` and `replace` find |
| Api.LaterParameterRewritesEarlierValue | shared/routes.ts:52-56 | a value holding `:b` is rewritten by a later parameter `b`: `/l/:a` with a=":b", b=7 gives `/l/7` |
| Api.PlaceholderMatchesLongerName | shared/routes.ts:53-54 | matching is by substring: `:id` fills the start of `:idx`, giving `/l/7x` |
| Api.OnlyFirstOccurrenceReplaced | shared/routes.ts:53-54 | of two `:id` placeholders only the first is filled |
| Api.AsWrittenExpandsDollarPatterns | shared/routes.ts:53-54 | as written, the value `a$&b` puts the placeholder itself into the url (`/l/a:idb`); inserted verbatim it gives `/l/a$&b` |
| Api.AsWrittenAgreesWithoutDollar | shared/routes.ts:49-59 | without `$` in any value, `buildUrl` as written and with verbatim insertion agree |
| Api.NumbersAreDollarFree | shared/routes.ts:54 | `String(n)` of an integer never contains `$`, so numeric parameters are inserted verbatim |
| Schema.InsertColumnsAreTheNonOmitted | shared/schema.ts:32-36 | the insert schema's columns are the table's columns less `id`, `createdAt` and `status` |
| Schema.RequiredInsertKeys | shared/schema.ts:9-24 | first name, last name, e-mail, income, amount, duration and currency are required; identity file url, IBAN and payment method are nullable |
| Schema.KeysDistinct | shared/schema.ts:6-29 | different columns have different JSON keys |
| Schema.ColumnIssue | shared/schema.ts:6-36 | a column raises no issue exactly when its key is absent and not required, or holds null and the column is nullable, or holds a value of the column type that the validator accepts; an issue's path is the column's key |
| Schema.Issues | shared/schema.ts:32-36 | no issue is reported exactly when every column passes |
| Schema.ParseInsert | shared/schema.ts:32-36 | the parse of an object succeeds exactly when no column reports an issue; it then yields the typed values the body holds, and otherwise the first issue of each failing column, in column order |
| Schema.Parse | server/routes.ts:32 | a body that is not an object fails with one issue whose path is empty, before any column is checked; an object is parsed column by column |
| Schema.IssuesDependOnlyOnColumns | shared/schema.ts:32-36 | the issues depend only on the keys of the columns checked |
| Schema.ParseReadsOnlyInsertKeys | shared/schema.ts:32-36 | two bodies that agree on the insert keys parse alike: unknown keys are dropped |
| Schema.ClientCannotSetServerFields | shared/schema.ts:32-36 | whatever a body says about `id`, `status` or `createdAt` changes nothing in the parse |
| Schema.NoIssueAfterSuccess | shared/schema.ts:32-36 | after a successful parse no insert column has an issue |
| Schema.ParseSuccessHasRequiredKeys | shared/schema.ts:9-18 | a successful parse found every required key with a value of its type that the validator accepts |
| Schema.ParseSuccessCopiesTextKeys | shared/schema.ts:9-18 | the parsed names, e-mail and currency are exactly the body's strings |
| Schema.ParseSuccessCopiesIntegerKeys | shared/schema.ts:12-17 | the parsed income, amount and duration are exactly the body's whole numbers |
| Schema.ParseSuccessCopiesOptionalKeys | shared/schema.ts:13-24 | each optional key is parsed as absent, null or the body's string exactly as the body has it |
| Schema.FirstIssueIsFirstFailingColumn | shared/schema.ts:32-36 | the first issue reported belongs to a failing column that all earlier columns passed |
| Schema.FirstIssueAt | shared/schema.ts:32-36 | when columns before k pass and column k fails, the first issue is column k's |
| Schema.ParseFailureNamesFirstFailingColumn | shared/schema.ts:32-36 | a failed parse reports issues, and the first names, by its key, the first failing insert column |
| Schema.MissingRequiredKeyFails | shared/schema.ts:9-18 | leaving out any required key fails the parse |
| Schema.Materialize | shared/schema.ts:7-28 | the stored row takes the store's id and insert time, status `pending`, payment method `bank_transfer` when left out, null for a left-out nullable key, and the parsed values otherwise |
| Server.CreateLoanApplication | server/storage.ts:13-19 | a successful insert appends exactly the row `Materialize` builds from the input with the next serial id and the insert time, an id no earlier row of a valid store carries; a failed insert is reported |
| Server.Lookup | shared/schema.ts:7 | a lookup by id finds a stored row with that id, or reports that none has it |
| Server.HandleSubmit | server/routes.ts:30-44 | the submit handler answers 201, 400 or 500; 201 exactly when the parse and store succeed, 400 exactly when the parse fails, including for a body that is not an object; no row is added unless it answers 201, and a 201 appends exactly the echoed row and advances the serial by one |
| Server.ValidSubmissionIsStored | server/routes.ts:30-34 | a body that parses is stored and answered 201 with the stored row: next id, pending, created now |
| Server.InvalidSubmissionNamesFirstFailingField | server/routes.ts:36-40 | a body that fails to parse is answered 400 with the first failing column's message and key, and the store is untouched |
| Server.IncomeIssueIsReported | server/routes.ts:36-40 | with names and e-mail in order and income failing, the answer is 400 with income's message and field `income` |
| Server.MissingIncomeIsReported | server/routes.ts:36-40 | with names and e-mail in order, a body without `income` is answered 400 naming `income` |
| Server.StoreFailureIsInternalError | server/routes.ts:42 | a store failure is answered 500 with exactly "Internal server error" |
| Server.NonObjectBodyIsRejected | server/routes.ts:36-40 | a body that is not an object, such as an array, is answered 400 with field "", the empty path joined, and the store is untouched |
| Server.SubmitResponsesFollowContract | shared/routes.ts:20-30 | every submit response is one the contract declares, or the 500 internal error body |
| Server.UploadResponsesFollowContract | shared/routes.ts:31-42 | every upload response is one the contract declares |
| Server.HandleUpload | server/routes.ts:47-60 | no file gives 400 "No file uploaded"; a file gives 200 with url "/uploads/" + stored name and the client's original name |
| Server.SubmitKeepsStoreValid | server/routes.ts:30-44 | a submission keeps ids distinct and increasing, and every row pending |
| Server.CreatedRowReadsBack | server/routes.ts:33-34 | the row returned by a 201 is found in the store under its id |
| Server.LookupFindsUniqueId | shared/schema.ts:7 | in a store with increasing ids a lookup finds exactly the row with that id |
| Server.SubmitAll | server/routes.ts:30-44 | a sequence of submissions gets one response each; stored rows are never changed or lost (the earlier table is a prefix of the later one), and the table grows by exactly the rows the 201 answers echo, one per 201, in request order |
| Server.SubmissionsKeepIdsDistinct | shared/schema.ts:7 | after any sequence of submissions all ids are distinct and every row is pending |
| Server.UploadCapIsFiveMebibytes | server/routes.ts:12-15 | the upload size cap is 5·1024·1024 = 5242880 bytes |
| Flow.PayloadTextValues | client/src/components/ApplicationForm.tsx:75-78 | the body sent holds the names, e-mail and currency as strings under the schema's keys |
| Flow.PayloadOptionalValues | client/src/components/ApplicationForm.tsx:75-78 | the body sent holds the upload's url, the IBAN and the payment method as strings |
| Flow.PayloadNumberValues | client/src/hooks/use-loans.ts:11-16 | the body sent holds income as its coerced number and amount and duration as numbers |
| Flow.PayloadHasEveryColumn | client/src/components/ApplicationForm.tsx:75-78 | the body sent holds a non-null value for every insert column, of the column's type except possibly income |
| Flow.ReadsBackText | shared/schema.ts:9-18 | the server reads back exactly the strings the form sent |
| Flow.ReadsBackOptional | shared/schema.ts:13-24 | the server reads the optional keys the form sent as given, never absent or null |
| Flow.ReadsBackNumbers | shared/schema.ts:12-17 | the model's reader takes amount and duration as sent and a whole income as sent; it floors a fractional income, which the parse never reads because it refuses it first |
| Flow.PayloadParses | server/routes.ts:32 | a valid form with a whole income and values the validator accepts parses without an issue |
| Flow.PayloadReadsBack | server/routes.ts:32 | what is read from the form's body is the form's values, with the url, IBAN and method given and a whole income exact |
| Flow.FormSubmissionIsStored | server/routes.ts:30-34 | a completed form with a whole income is stored as sent: 201, the url (or "") and IBAN given, pending, one row appended |
| Flow.FractionalIncomeIsRefused | client/src/components/ApplicationForm.tsx:21-22 | a completed form with a fractional income is refused by the server with 400 naming `income`, and nothing is stored |
| Strings.IndexOf | shared/routes.ts:53 | `includes` holds exactly when an occurrence exists, and the index is the first occurrence |
| Strings.ReplaceFirst | shared/routes.ts:54 | `replace` with a string pattern leaves a string without the pattern unchanged, and with a `$`-free replacement equals verbatim replacement of the first occurrence |
| Strings.ReplaceFirstSpec | shared/routes.ts:54 | `replace` changes exactly the first occurrence, into the GetSubstitution expansion of the replacement, or nothing when there is none |
| Strings.ReplaceFirstLiteralSpec | shared/routes.ts:54 | replacing verbatim changes only the first occurrence, or nothing when there is none |
| Strings.Substitution | shared/routes.ts:54 | following GetSubstitution, a replacement without `$` is inserted as it is |
| Strings.ReplaceFirstOfPlainText | shared/routes.ts:54 | `replace` with a `$`-free replacement equals verbatim replacement |
| Strings.JoinSingle | server/routes.ts:39 | a one-key issue path joined by "." is that key |
| Strings.IntToString | shared/routes.ts:54 | `String(n)` of a safe integer is non-empty, has a `-` only in front and exactly when n is negative, and digits everywhere else |
| Strings.IntToStringRoundTrip | shared/routes.ts:54 | reading `String(n)` back, its sign applied to the value of its digits, gives n for every safe integer, negative ones included |
| Strings.NatToStringRoundTrip | shared/routes.ts:54 | the decimal digits of `String(n)` read back as n |

## Left out

- Static pages (`About`, `HowItWorks`, `WhyUs`), the footer, all styling and animation, and the stray import in `client/src/pages/Home.tsx`: no logic.
- `client/src/hooks/use-loans.ts` beyond its `Number()` coercion of the payload: the fetch, query client and toasts become an `Outcome` input (success or a thrown error) to the form's submit.
- `server/storage.ts` and the database: the store is a list of rows with a serial counter, and its failure is an input.
- Server.CreateLoanApplication: leaves the serial counter unchanged when the insert fails. Postgres usually uses up a serial value on a failed insert, so real ids can have gaps. Ids stay distinct and increasing either way.
- Flow.FractionalIncomeIsRefused: assumes drizzle-zod maps the integer `income` column to a whole-number check, as it does from version 0.6 on. No file of the repository modelled here pins the version. With a plain number check a fractional income would pass the parse, fail in Postgres, and be answered 500.
- `window.scrollTo`, the progress bar, `Intl.NumberFormat` and the random success number on step 3: presentation or randomness with no effect on state.
- IEEE-754 floating point: the calculator works over exact reals, so `Math.pow` rounding and display rounding are not modelled.
- The `isPending` disabling of Back and Submit, and async timing such as a second Next click before validation resolves: concurrency of the UI, not a guarantee of the code.
- The Return Home button on step 3: it navigates with the router, which is outside this model.
- The form schema's text checks and the server's refinements and messages: these belong to zod and drizzle-zod, so they are the parameters `Wizard.Rules` and `Schema.Validator`.
- How multer stores a file, chooses its name, and rejects a file over the cap. Only the cap constant and the handler's response are modelled.
- Express routing, JSON serialisation and static file serving. In its default strict mode `express.json()` refuses a top-level JSON value that is neither an object nor an array before the handler runs. `Schema.Parse` treats every non-object the same way, and an array is the case that reaches it.
- Object key order for integer-like keys in `Object.entries`: `buildUrl` parameters are given as a sequence in entry order.
- Numeric parameters of `buildUrl` that are not safe integers: a number parameter is an integer of magnitude at most 2^53 − 1 (`Strings.SafeInteger`). For those, `String()` gives the decimal digits. Fractions, integers JavaScript cannot hold exactly, and the exponent form `String()` uses from 10^21 up are not modelled.
- Schema.ParseInsert: reports at most one issue per failing column. zod can report several for one column, for instance a fractional income above 2^31 fails both the whole-number and the upper-bound check. The handler reads only the first issue, which the model gets right.
- Calculator.QuoteOf: does not restate that the total is the payment times the duration, because that is stated once on `Calculator.QuoteFor`, which `QuoteOf` returns.

## Findings

| source | as written | input that shows it | evidently intended | confidence | as-written member | corrected member |
|---|---|---|---|---|---|---|
| shared/routes.ts:53-54 | `url.replace(":key", String(value))` passes the value as a replacement string, so `$&`, `$$`, `` $` `` and `$'` in a value are expanded | path `/l/:id` with `id = "a$&b"` gives `/l/a:idb` | the value is inserted verbatim, giving `/l/a$&b` | not executed | Api.AsWrittenExpandsDollarPatterns | Api.SubstituteFirstOccurrence |

=== FILE: api.dfy ===
/**
 * The HTTP contract shared by client and server: the two endpoints, the
 * error body schemas, and the `buildUrl` path helper (shared/routes.ts).
 */
module Api {
  import opened Wrappers
  import opened Strings
  import Schema

  /** Both endpoints are POST routes. */
  datatype Method = Post

  /** `errorSchemas.validation`: a required message and an optional field. */
  datatype ValidationError = ValidationError(message: string, field: Option<string>)

  /** `errorSchemas.internal`: a message and nothing else. */
  datatype InternalError = InternalError(message: string)

  /** The body of a successful upload. */
  datatype UploadResponse = UploadResponse(url: string, filename: string)

  /** Every JSON body a handler of this contract sends. */
  datatype ResponseBody =
    | RecordBody(record: Schema.LoanApplication)
    | ValidationBody(validation: ValidationError)
    | InternalBody(internal: InternalError)
    | UploadBody(upload: UploadResponse)

  datatype BodySchema = RecordSchema | ValidationSchema | InternalSchema | UploadSchema

  predicate Matches(schema: BodySchema, body: ResponseBody) {
    match schema
    case RecordSchema => body.RecordBody?
    case ValidationSchema => body.ValidationBody?
    case InternalSchema => body.InternalBody?
    case UploadSchema => body.UploadBody?
  }

  /** One entry of `api.loans`: its method, path and the body schema of each declared status. */
  datatype Endpoint = Endpoint(verb: Method, path: string, responses: map<int, BodySchema>)

  const SubmitLoan: Endpoint :=
    Endpoint(Post, "/api/loans", map[201 := RecordSchema, 400 := ValidationSchema])

  const UploadFile: Endpoint :=
    Endpoint(Post, "/api/upload", map[200 := UploadSchema, 400 := ValidationSchema])

  /** A response the endpoint's contract declares: a listed status with a body of its schema. */
  predicate Declared(ep: Endpoint, status: int, body: ResponseBody) {
    status in ep.responses && Matches(ep.responses[status], body)
  }

  /** A value of a `buildUrl` parameter: a string or an integral number that JavaScript holds exactly. */
  datatype ParamValue = Text(s: string) | Number(n: SafeInteger)

  /** `String(value)`. */
  function ToText(value: ParamValue): string {
    match value
    case Text(s) => s
    case Number(n) => IntToString(n)
  }

  /** The placeholder a parameter named `key` fills. */
  function Placeholder(key: string): string {
    ":" + key
  }

  /**
   * One step of `buildUrl` as written: `url.replace(":key", String(value))`
   * when the placeholder occurs. The replacement text goes through
   * `String.prototype.replace`'s `$` patterns.
   */
  function SubstituteAsWritten(url: string, key: string, value: ParamValue): (r: string)
    ensures !Contains(url, Placeholder(key)) ==> r == url
    ensures '$' !in ToText(value) ==> r == Substitute(url, key, value)
  {
    if Contains(url, Placeholder(key)) then ReplaceFirst(url, Placeholder(key), ToText(value)) else url
  }

  /** The `forEach` over the entries as written: each value goes through `replace`. */
  function ApplyAsWritten(url: string, params: seq<(string, ParamValue)>): (r: string)
    ensures |params| == 0 ==> r == url
    ensures |params| > 0 && !Contains(url, Placeholder(params[0].0)) ==> r == ApplyAsWritten(url, params[1..])
    decreases |params|
  {
    if |params| == 0 then url
    else ApplyAsWritten(SubstituteAsWritten(url, params[0].0, params[0].1), params[1..])
  }

  /**
   * `buildUrl(path, params)` as written; `params` is in `Object.entries` order.
   * Only a `$` in a value sets it apart from verbatim insertion.
   */
  function BuildUrlAsWritten(path: string, params: Option<seq<(string, ParamValue)>>): (r: string)
    ensures params == None || params == Some([]) ==> r == path
    ensures params.Some? && DollarFree(params.value) ==> r == BuildUrl(path, params)
  {
    match params
    case None => path
    case Some(ps) =>
      if DollarFree(ps) then
        AsWrittenAgreesWithoutDollar(path, ps);
        ApplyAsWritten(path, ps)
      else ApplyAsWritten(path, ps)
  }

  /** One step of `buildUrl` as intended: the first placeholder becomes `String(value)` verbatim. */
  function Substitute(url: string, key: string, value: ParamValue): string {
    ReplaceFirstLiteral(url, Placeholder(key), ToText(value))
  }

  /**
   * A parameter whose placeholder does not occur leaves the URL unchanged; one
   * whose placeholder occurs has its first occurrence, and only that one,
   * replaced by `String(value)`.
   */
  lemma SubstituteFirstOccurrence(url: string, key: string, value: ParamValue)
    ensures !Contains(url, Placeholder(key)) ==> Substitute(url, key, value) == url
    ensures Contains(url, Placeholder(key)) ==> exists k: nat ::
      && OccursAt(url, Placeholder(key), k)
      && (forall j: nat :: j < k ==> !OccursAt(url, Placeholder(key), j))
      && Substitute(url, key, value) == url[..k] + ToText(value) + url[k + |Placeholder(key)|..]
  {
    ReplaceFirstLiteralSpec(url, Placeholder(key), ToText(value));
  }

  function Apply(url: string, params: seq<(string, ParamValue)>): string
    decreases |params|
  {
    if |params| == 0 then url
    else Apply(Substitute(url, params[0].0, params[0].1), params[1..])
  }

  /** `buildUrl(path, params)` with each value inserted literally. */
  function BuildUrl(path: string, params: Option<seq<(string, ParamValue)>>): (r: string)
    ensures params == None || params == Some([]) ==> r == path
  {
    match params
    case None => path
    case Some(ps) => Apply(path, ps)
  }

  /** Parameters are applied in entry order, each to the result of the ones before it. */
  lemma {:induction false} ApplyInEntryOrder(url: string, params: seq<(string, ParamValue)>, key: string, value: ParamValue)
    ensures Apply(url, params + [(key, value)]) == Substitute(Apply(url, params), key, value)
    decreases |params|
  {
    if |params| > 0 {
      assert (params + [(key, value)])[1..] == params[1..] + [(key, value)];
      ApplyInEntryOrder(Substitute(url, params[0].0, params[0].1), params[1..], key, value);
    }
  }

  /** As written too, parameters are applied in entry order, each to the result of the ones before it. */
  lemma {:induction false} AsWrittenInEntryOrder(url: string, params: seq<(string, ParamValue)>, key: string, value: ParamValue)
    ensures ApplyAsWritten(url, params + [(key, value)]) == SubstituteAsWritten(ApplyAsWritten(url, params), key, value)
    decreases |params|
  {
    if |params| > 0 {
      assert (params + [(key, value)])[1..] == params[1..] + [(key, value)];
      AsWrittenInEntryOrder(SubstituteAsWritten(url, params[0].0, params[0].1), params[1..], key, value);
    }
  }

  /** As written, a parameter whose placeholder is absent leaves the running URL as it is, whatever its value. */
  lemma AsWrittenAbsentPlaceholderIsIgnored(path: string, params: seq<(string, ParamValue)>, key: string, value: ParamValue)
    requires !Contains(ApplyAsWritten(path, params), Placeholder(key))
    ensures BuildUrlAsWritten(path, Some(params + [(key, value)])) == BuildUrlAsWritten(path, Some(params))
  {
    AsWrittenInEntryOrder(path, params, key, value);
  }

  /**
   * As written, the first placeholder is the one replaced, by `String(value)`
   * after its `$` patterns are expanded; an absent placeholder changes nothing.
   */
  lemma AsWrittenFirstOccurrence(url: string, key: string, value: ParamValue)
    ensures !Contains(url, Placeholder(key)) ==> SubstituteAsWritten(url, key, value) == url
    ensures Contains(url, Placeholder(key)) ==> exists k: nat ::
      && OccursAt(url, Placeholder(key), k)
      && (forall j: nat :: j < k ==> !OccursAt(url, Placeholder(key), j))
      && SubstituteAsWritten(url, key, value)
         == url[..k] + Substitution(Placeholder(key), url, k, ToText(value)) + url[k + |Placeholder(key)|..]
  {
    ReplaceFirstSpec(url, Placeholder(key), ToText(value));
  }

  /** A parameter whose placeholder is absent leaves the running URL as it is. */
  lemma AbsentPlaceholderIsIgnored(path: string, params: seq<(string, ParamValue)>, key: string, value: ParamValue)
    requires !Contains(Apply(path, params), Placeholder(key))
    ensures BuildUrl(path, Some(params + [(key, value)])) == BuildUrl(path, Some(params))
  {
    ApplyInEntryOrder(path, params, key, value);
    SubstituteFirstOccurrence(Apply(path, params), key, value);
  }

  /** The first placeholder, found at `k`, is replaced by `String(value)`. */
  lemma SubstituteAtFirst(url: string, key: string, value: ParamValue, k: nat)
    requires OccursAt(url, Placeholder(key), k)
    requires forall j: nat :: j < k ==> !OccursAt(url, Placeholder(key), j)
    ensures Substitute(url, key, value) == url[..k] + ToText(value) + url[k + |key| + 1..]
  {
    var pat := Placeholder(key);
    assert Contains(url, pat);
    assert IndexOf(url, pat) == Some(k);
    ReplaceFirstLiteralAt(url, pat, ToText(value), k);
  }

  /** As written, the first placeholder, found at `k`, is replaced by the expansion of `String(value)`. */
  lemma AsWrittenAtFirst(url: string, key: string, value: ParamValue, k: nat)
    requires OccursAt(url, Placeholder(key), k)
    requires forall j: nat :: j < k ==> !OccursAt(url, Placeholder(key), j)
    ensures SubstituteAsWritten(url, key, value)
      == url[..k] + Substitution(Placeholder(key), url, k, ToText(value)) + url[k + |key| + 1..]
  {
    var pat := Placeholder(key);
    assert Contains(url, pat);
    assert IndexOf(url, pat) == Some(k);
    ReplaceFirstAt(url, pat, ToText(value), k);
  }

  /** An occurrence at `k` with no `:` before it is the first placeholder. */
  lemma FirstPlaceholderAt(url: string, key: string, k: nat)
    requires OccursAt(url, Placeholder(key), k)
    requires forall j :: 0 <= j < k ==> url[j] != ':'
    ensures forall j: nat :: j < k ==> !OccursAt(url, Placeholder(key), j)
  {
    FirstOccurrenceAt(url, Placeholder(key), k);
  }

  /**
   * The examples below take their URLs as parameters fixed by `requires`, so
   * that the verifier evaluates them step by step.
   */

  lemma RewriteToPlaceholder(url: string)
    requires url == "/l/:a"
    ensures Substitute(url, "a", Text(":b")) == "/l/:b"
  {
    FirstPlaceholderAt(url, "a", 3);
    SubstituteAtFirst(url, "a", Text(":b"), 3);
  }

  lemma FillSeven(url: string)
    requires url == "/l/:b"
    ensures Substitute(url, "b", Number(7)) == "/l/7"
  {
    assert ToText(Number(7)) == "7";
    FirstPlaceholderAt(url, "b", 3);
    SubstituteAtFirst(url, "b", Number(7), 3);
  }

  /** A value that itself holds a placeholder is rewritten by a later parameter. */
  lemma LaterParameterRewritesEarlierValue(path: string, params: seq<(string, ParamValue)>)
    requires path == "/l/:a" && params == [("a", Text(":b")), ("b", Number(7))]
    ensures BuildUrl(path, Some(params)) == "/l/7"
  {
    RewriteToPlaceholder(path);
    FillSeven("/l/:b");
    assert Apply(path, params) == Apply("/l/:b", params[1..]);
    assert Apply("/l/:b", params[1..]) == Apply("/l/7", []);
  }

  /** Matching is by substring: the placeholder `:id` also matches the start of `:idx`. */
  lemma PlaceholderMatchesLongerName(path: string, params: seq<(string, ParamValue)>)
    requires path == "/l/:idx" && params == [("id", Number(7))]
    ensures BuildUrl(path, Some(params)) == "/l/7x"
  {
    assert ToText(Number(7)) == "7";
    FirstPlaceholderAt(path, "id", 3);
    SubstituteAtFirst(path, "id", Number(7), 3);
    assert Apply(path, params) == Apply(Substitute(path, "id", Number(7)), []);
  }

  /** Only the first of two equal placeholders is filled. */
  lemma OnlyFirstOccurrenceReplaced(path: string, params: seq<(string, ParamValue)>)
    requires path == "/:id/:id" && params == [("id", Text("x"))]
    ensures BuildUrl(path, Some(params)) == "/x/:id"
  {
    FirstPlaceholderAt(path, "id", 1);
    SubstituteAtFirst(path, "id", Text("x"), 1);
    assert Apply(path, params) == Apply(Substitute(path, "id", Text("x")), []);
  }

  /** `$&` in the replacement stands for the matched placeholder. */
  lemma ExpandMatch(path: string)
    requires path == "/l/:id"
    ensures Substitution(":id", path, 3, "a$&b") == "a:idb"
  {
    var rep := "a$&b";
    assert rep[1..][2..] == "b";
    assert Substitution(":id", path, 3, "b") == "b";
    assert Substitution(":id", path, 3, rep[1..]) == ":id" + "b";
  }

  /** As written, the one step for `id` puts the matched placeholder where `$&` stood. */
  lemma ExpandAsWritten(path: string)
    requires path == "/l/:id"
    ensures SubstituteAsWritten(path, "id", Text("a$&b")) == "/l/a:idb"
  {
    assert Placeholder("id") == ":id";
    ReplaceExpands(path);
  }

  lemma ReplaceExpands(path: string)
    requires path == "/l/:id"
    ensures Contains(path, ":id") && ReplaceFirst(path, ":id", "a$&b") == "/l/a:idb"
  {
    FirstOccurrenceAt(path, ":id", 3);
    ExpandMatch(path);
    assert ReplaceFirst(path, ":id", "a$&b") == path[..3] + "a:idb" + path[6..];
  }

  /** Inserted verbatim, the value keeps its `$&`. */
  lemma VerbatimKeepsDollar(path: string, params: seq<(string, ParamValue)>)
    requires path == "/l/:id" && params == [("id", Text("a$&b"))]
    ensures BuildUrl(path, Some(params)) == "/l/a$&b"
  {
    FirstPlaceholderAt(path, "id", 3);
    SubstituteAtFirst(path, "id", Text("a$&b"), 3);
    assert Apply(path, params) == Apply(Substitute(path, "id", Text("a$&b")), []);
  }

  /** The value `a$&b` is expanded as written: `$&` becomes the placeholder itself. */
  lemma AsWrittenExpandsDollarPatterns(path: string, params: seq<(string, ParamValue)>)
    requires path == "/l/:id" && params == [("id", Text("a$&b"))]
    ensures BuildUrlAsWritten(path, Some(params)) == "/l/a:idb"
    ensures BuildUrl(path, Some(params)) == "/l/a$&b"
  {
    ExpandAsWritten(path);
    VerbatimKeepsDollar(path, params);
    assert ApplyAsWritten(path, params) == ApplyAsWritten(SubstituteAsWritten(path, "id", Text("a$&b")), []);
  }

  /** Numbers and `$`-free strings are inserted the same way by both versions. */
  predicate DollarFree(params: seq<(string, ParamValue)>) {
    forall k :: 0 <= k < |params| ==> '$' !in ToText(params[k].1)
  }

  lemma {:induction false} AsWrittenAgreesWithoutDollar(url: string, params: seq<(string, ParamValue)>)
    requires DollarFree(params)
    ensures ApplyAsWritten(url, params) == Apply(url, params)
    decreases |params|
  {
    if |params| > 0 {
      ReplaceFirstOfPlainText(url, Placeholder(params[0].0), ToText(params[0].1));
      assert SubstituteAsWritten(url, params[0].0, params[0].1) == Substitute(url, params[0].0, params[0].1);
      AsWrittenAgreesWithoutDollar(Substitute(url, params[0].0, params[0].1), params[1..]);
    }
  }

  /** `String(n)` never contains `$`, so numeric parameters are never expanded. */
  lemma NumbersAreDollarFree(n: SafeInteger)
    ensures '$' !in ToText(Number(n))
  {
  }
}

=== FILE: calculator.dfy ===
/**
 * The loan calculator (client/src/components/LoanCalculator.tsx): a fixed
 * table of annual rates per currency, the amortised monthly payment over
 * exact rationals, and the calculator's own state driven by its sliders,
 * its currency selector and its apply button.
 */
module Calculator {
  import opened Wrappers

  /** An entry of `CURRENCIES`: the code, its display name and its nominal annual rate. */
  datatype CurrencyOption = CurrencyOption(code: string, name: string, rate: real)

  const Currencies: seq<CurrencyOption> := [
    CurrencyOption("EUR", "Euro (EUR)", 0.045),
    CurrencyOption("USD", "US Dollar (USD)", 0.052),
    CurrencyOption("GBP", "British Pound (GBP)", 0.048),
    CurrencyOption("CHF", "Swiss Franc (CHF)", 0.035),
    CurrencyOption("JPY", "Japanese Yen (JPY)", 0.025)
  ]

  /** `table.find(c => c.value === code)`: the first entry with that code. */
  function Find(table: seq<CurrencyOption>, code: string): (r: Option<CurrencyOption>)
    ensures r.None? <==> forall k :: 0 <= k < |table| ==> table[k].code != code
    ensures r.Some? ==> exists k :: 0 <= k < |table| && table[k] == r.value && r.value.code == code &&
                                    forall j :: 0 <= j < k ==> table[j].code != code
  {
    if |table| == 0 then None
    else if table[0].code == code then Some(table[0])
    else
      var r := Find(table[1..], code);
      assert r.Some? ==> exists k :: 0 <= k < |table[1..]| && table[1..][k] == r.value;
      if r.Some? then
        var k :| 0 <= k < |table[1..]| && table[1..][k] == r.value && r.value.code == code
          && forall j :: 0 <= j < k ==> table[1..][j].code != code;
        assert table[k + 1] == r.value;
        assert forall j :: 0 <= j < k + 1 ==> table[j].code != code by {
          forall j | 0 <= j < k + 1 ensures table[j].code != code {
            if j > 0 { assert table[j] == table[1..][j - 1]; }
          }
        }
        r
      else r
  }

  /** The entry the calculator uses: the matching one, or the first entry for an unknown code. */
  function Selected(code: string): (c: CurrencyOption)
    ensures c in Currencies
    ensures (exists k :: 0 <= k < |Currencies| && Currencies[k].code == code) ==> c.code == code
    ensures (forall k :: 0 <= k < |Currencies| ==> Currencies[k].code != code) ==> c == Currencies[0]
  {
    match Find(Currencies, code)
    case Some(c) => c
    case None => Currencies[0]
  }

  function AnnualRate(code: string): real {
    Selected(code).rate
  }

  function MonthlyRate(code: string): real {
    AnnualRate(code) / 12.0
  }

  /** The codes of the table are distinct. */
  lemma CodesDistinct()
    ensures forall j, k :: 0 <= j < k < |Currencies| ==> Currencies[j].code != Currencies[k].code
  {
    assert Currencies[0].code == "EUR" && Currencies[1].code == "USD" && Currencies[2].code == "GBP";
    assert Currencies[3].code == "CHF" && Currencies[4].code == "JPY";
  }

  /** Looking up an entry's code finds that entry. */
  lemma SelectedEntry(k: nat)
    requires k < |Currencies|
    ensures Selected(Currencies[k].code) == Currencies[k]
  {
    CodesDistinct();
    var c := Selected(Currencies[k].code);
    var j :| 0 <= j < |Currencies| && Currencies[j] == c;
    assert c.code == Currencies[k].code;
  }

  /** The five rates, and the fallback to the euro rate for any other code. */
  lemma RateTable(code: string)
    ensures code == "EUR" ==> AnnualRate(code) == 0.045
    ensures code == "USD" ==> AnnualRate(code) == 0.052
    ensures code == "GBP" ==> AnnualRate(code) == 0.048
    ensures code == "CHF" ==> AnnualRate(code) == 0.035
    ensures code == "JPY" ==> AnnualRate(code) == 0.025
    ensures code != "EUR" && code != "USD" && code != "GBP" && code != "CHF" && code != "JPY" ==>
      AnnualRate(code) == 0.045
  {
    if code == "EUR" {
      SelectedEntry(0);
    } else if code == "USD" {
      SelectedEntry(1);
    } else if code == "GBP" {
      SelectedEntry(2);
    } else if code == "CHF" {
      SelectedEntry(3);
    } else if code == "JPY" {
      SelectedEntry(4);
    } else {
      UnknownCodeFallsBack(code);
    }
  }

  /** A code outside the table selects its first entry, EUR. */
  lemma UnknownCodeFallsBack(code: string)
    requires code != "EUR" && code != "USD" && code != "GBP" && code != "CHF" && code != "JPY"
    ensures Selected(code) == Currencies[0]
  {
    assert forall k :: 0 <= k < |Currencies| ==> Currencies[k].code != code;
  }


  /** Every table rate is positive, so every lookup yields a positive monthly rate. */
  lemma MonthlyRatePositive(code: string)
    ensures MonthlyRate(code) > 0.0
    ensures MonthlyRate(code) * 12.0 == AnnualRate(code)
  {
    assert forall c :: c in Currencies ==> c.rate > 0.0;
  }

  /** `Math.pow(x, n)` for a natural exponent, exactly. */
  function Pow(x: real, n: nat): real {
    if n == 0 then 1.0 else x * Pow(x, n - 1)
  }

  /** Multiplying both sides of `y < z` by a positive factor. */
  lemma MulLess(x: real, y: real, z: real)
    requires x > 0.0 && y < z
    ensures x * y < x * z
  {
    assert x * z - x * y == x * (z - y);
  }

  /** The sign of a product with a positive factor is the sign of the other factor. */
  lemma ProductSign(u: real, d: real)
    requires d > 0.0
    ensures u >= 0.0 ==> u * d >= 0.0
    ensures u <= 0.0 ==> u * d <= 0.0
  {
  }

  /** Dividing out a positive factor. */
  lemma CancelLess(x: real, y: real, d: real)
    requires d > 0.0 && x * d < y * d
    ensures x < y
  {
    ProductSign(x - y, d);
    assert (x - y) * d == x * d - y * d;
  }

  lemma {:induction false} PowAtLeastOne(x: real, n: nat)
    requires x >= 1.0
    ensures Pow(x, n) >= 1.0
    ensures x > 1.0 && n >= 1 ==> Pow(x, n) > 1.0
  {
    if n > 0 {
      PowAtLeastOne(x, n - 1);
      var y := Pow(x, n - 1);
      assert x * y - y == (x - 1.0) * y;
    }
  }

  /**
   * The monthly payment: `amount / duration` at a zero rate, otherwise
   * `p·i·(1+i)^n / ((1+i)^n − 1)`, whose denominator is positive for a
   * positive rate and at least one month.
   */
  function MonthlyPayment(p: real, n: nat, i: real): (m: real)
    requires n >= 1 && i >= 0.0
    ensures i == 0.0 ==> m * (n as real) == p
    ensures i > 0.0 ==> m * (Pow(1.0 + i, n) - 1.0) == p * i * Pow(1.0 + i, n)
  {
    if i == 0.0 then p / (n as real)
    else
      PowAtLeastOne(1.0 + i, n);
      p * i * Pow(1.0 + i, n) / (Pow(1.0 + i, n) - 1.0)
  }

  /** At a positive rate the payment times `(1+i)^n − 1` is the principal grown by `i·(1+i)^n`. */
  lemma PaymentEquation(p: real, n: nat, i: real)
    requires n >= 1 && i > 0.0
    ensures Pow(1.0 + i, n) > 1.0
    ensures MonthlyPayment(p, n, i) * (Pow(1.0 + i, n) - 1.0) == p * i * Pow(1.0 + i, n)
  {
    PowAtLeastOne(1.0 + i, n);
  }

  /** The balance owed after `k` months: each month adds interest at rate `i`, then deducts the payment `m`. */
  function Balance(p: real, i: real, m: real, k: nat): real {
    if k == 0 then p else Balance(p, i, m, k - 1) * (1.0 + i) - m
  }

  lemma ClosedFormStep(p: real, i: real, m: real, b: real, q: real)
    requires i * b == p * i * q - m * (q - 1.0)
    ensures i * (b * (1.0 + i) - m) == p * i * ((1.0 + i) * q) - m * ((1.0 + i) * q - 1.0)
  {
    calc {
      i * (b * (1.0 + i) - m);
      (i * b) * (1.0 + i) - i * m;
      (p * i * q - m * (q - 1.0)) * (1.0 + i) - i * m;
      p * i * q * (1.0 + i) - m * (q - 1.0) * (1.0 + i) - i * m;
      p * i * ((1.0 + i) * q) - m * ((1.0 + i) * q - 1.0);
    }
  }

  lemma {:induction false} BalanceClosedForm(p: real, i: real, m: real, k: nat)
    ensures i * Balance(p, i, m, k) == p * i * Pow(1.0 + i, k) - m * (Pow(1.0 + i, k) - 1.0)
  {
    if k > 0 {
      BalanceClosedForm(p, i, m, k - 1);
      ClosedFormStep(p, i, m, Balance(p, i, m, k - 1), Pow(1.0 + i, k - 1));
    }
  }

  lemma {:induction false} BalanceWithoutInterest(p: real, m: real, k: nat)
    ensures Balance(p, 0.0, m, k) == p - (k as real) * m
  {
    if k > 0 {
      BalanceWithoutInterest(p, m, k - 1);
    }
  }

  /** The payment retires the loan: after `n` payments nothing is owed. */
  lemma PaymentRetiresLoan(p: real, n: nat, i: real)
    requires n >= 1 && i >= 0.0
    ensures Balance(p, i, MonthlyPayment(p, n, i), n) == 0.0
  {
    var m := MonthlyPayment(p, n, i);
    if i == 0.0 {
      BalanceWithoutInterest(p, m, n);
      assert (n as real) * (p / (n as real)) == p;
    } else {
      PaymentEquation(p, n, i);
      BalanceClosedForm(p, i, m, n);
      assert i * Balance(p, i, m, n) == 0.0;
    }
  }

  lemma GrowthStep(i: real, a: real, n1: real)
    requires i > 0.0 && a >= 1.0 && n1 >= 0.0
    requires a - 1.0 <= n1 * i * a
    ensures (1.0 + i) * a - 1.0 < (n1 + 1.0) * i * ((1.0 + i) * a)
  {
    var q := 1.0 + i;
    var qa := q * a;
    assert qa - 1.0 == q * (a - 1.0) + i;
    assert q * (a - 1.0) <= q * (n1 * i * a) by {
      ProductSign(n1 * i * a - (a - 1.0), q);
      assert q * (n1 * i * a) - q * (a - 1.0) == (n1 * i * a - (a - 1.0)) * q;
    }
    assert i < i * qa by {
      assert qa >= q by { ProductSign(a - 1.0, q); assert qa - q == (a - 1.0) * q; }
      MulLess(i, 1.0, qa);
    }
    calc {
      qa - 1.0;
    == q * (a - 1.0) + i;
    <= q * (n1 * i * a) + i;
    <  q * (n1 * i * a) + i * qa;
    == (n1 + 1.0) * i * qa;
    }
  }

  /** `(1+i)^n − 1 < n·i·(1+i)^n` for a positive rate: the amortised payments cost more than the principal. */
  lemma {:induction false} GrowthBound(i: real, n: nat)
    requires i > 0.0 && n >= 1
    ensures Pow(1.0 + i, n) - 1.0 < (n as real) * i * Pow(1.0 + i, n)
  {
    PowAtLeastOne(1.0 + i, n - 1);
    if n > 1 {
      GrowthBound(i, n - 1);
    }
    GrowthStep(i, Pow(1.0 + i, n - 1), (n - 1) as real);
  }

  /** The arithmetic behind the total payback bound, over plain reals. */
  lemma CoverStep(p: real, i: real, q: real, nr: real, m: real)
    requires p > 0.0 && i > 0.0 && q > 1.0
    requires m * (q - 1.0) == p * i * q
    requires q - 1.0 < nr * i * q
    ensures m > 0.0 && m * nr > p
  {
    assert p * i * q > 0.0 by { assert p * i > 0.0; }
    ProductSign(m, q - 1.0);
    MulLess(p, q - 1.0, nr * i * q);
    calc {
      p * (q - 1.0);
    <  p * (nr * i * q);
    == nr * (p * i * q);
    == nr * (m * (q - 1.0));
    == (m * nr) * (q - 1.0);
    }
    CancelLess(p, m * nr, q - 1.0);
  }

  /** Without interest the payment is an equal share of the principal. */
  lemma ZeroRateSharesPrincipal(p: real, n: nat)
    requires n >= 1 && p > 0.0
    ensures MonthlyPayment(p, n, 0.0) > 0.0 && MonthlyPayment(p, n, 0.0) * (n as real) == p
  {
  }

  /** With interest the payments together exceed the principal. */
  lemma InterestRaisesTotal(p: real, n: nat, i: real)
    requires n >= 1 && i > 0.0 && p > 0.0
    ensures MonthlyPayment(p, n, i) > 0.0 && MonthlyPayment(p, n, i) * (n as real) > p
  {
    PaymentEquation(p, n, i);
    TotalExceeds(p, n, i, MonthlyPayment(p, n, i));
  }

  /** Any payment solving the amortisation equation at a positive rate repays more than the principal. */
  lemma TotalExceeds(p: real, n: nat, i: real, m: real)
    requires n >= 1 && i > 0.0 && p > 0.0
    requires Pow(1.0 + i, n) > 1.0 && m * (Pow(1.0 + i, n) - 1.0) == p * i * Pow(1.0 + i, n)
    ensures m > 0.0 && m * (n as real) > p
  {
    GrowthBound(i, n);
    CoverStep(p, i, Pow(1.0 + i, n), n as real, m);
  }

  /** At a positive rate the total repaid exceeds the principal; at a zero rate it equals it. */
  lemma PaymentsCoverPrincipal(p: real, n: nat, i: real)
    requires n >= 1 && i >= 0.0 && p > 0.0
    ensures MonthlyPayment(p, n, i) > 0.0
    ensures i == 0.0 ==> MonthlyPayment(p, n, i) * (n as real) == p
    ensures i > 0.0 ==> MonthlyPayment(p, n, i) * (n as real) > p
  {
    if i > 0.0 {
      InterestRaisesTotal(p, n, i);
    } else {
      ZeroRateSharesPrincipal(p, n);
    }
  }

  /** A larger principal costs a larger monthly payment. */
  lemma PaymentIncreasesWithAmount(p1: real, p2: real, n: nat, i: real)
    requires n >= 1 && i >= 0.0 && p1 < p2
    ensures MonthlyPayment(p1, n, i) < MonthlyPayment(p2, n, i)
  {
    if i > 0.0 {
      PaymentEquation(p1, n, i);
      PaymentEquation(p2, n, i);
      ScaleMonotone(p1, p2, i * Pow(1.0 + i, n), Pow(1.0 + i, n) - 1.0, MonthlyPayment(p1, n, i), MonthlyPayment(p2, n, i));
    }
  }

  /** Solutions of `m·d = p·c` with `c, d > 0` grow with `p`. */
  lemma ScaleMonotone(p1: real, p2: real, c: real, d: real, m1: real, m2: real)
    requires p1 < p2 && c > 0.0 && d > 0.0
    requires m1 * d == p1 * c && m2 * d == p2 * c
    ensures m1 < m2
  {
    MulLess(c, p1, p2);
    assert p1 * c == c * p1 && p2 * c == c * p2;
    CancelLess(m1, m2, d);
  }


  /** A product with a positive factor, divided by that factor. */
  lemma DivideOut(m: real, x: real, d: real)
    requires d > 0.0 && m * d == x
    ensures m == x / d
  {
  }

  /** A positive amount shared over one more month gives a smaller share. */
  lemma ShareFalls(p: real, x: real)
    requires p > 0.0 && x >= 1.0
    ensures p / (x + 1.0) < p / x
  {
    var u := p / (x + 1.0);
    var w := p / x;
    assert u * (x + 1.0) == p && w * x == p;
    var d := x * (x + 1.0);
    assert u * d == p * x;
    assert w * d == p * (x + 1.0);
    MulLess(p, x, x + 1.0);
    CancelLess(u, w, d);
  }

  /** `x / (x − 1)` falls as `x` grows beyond 1. */
  lemma RatioFalls(a: real, b: real)
    requires 1.0 < a < b
    ensures b / (b - 1.0) < a / (a - 1.0)
  {
    var x := a - 1.0;
    var y := b - 1.0;
    assert a / x == 1.0 + 1.0 / x;
    assert b / y == 1.0 + 1.0 / y;
    var xy := x * y;
    assert xy > 0.0;
    assert (1.0 / y) * xy == x;
    assert (1.0 / x) * xy == y;
    CancelLess(1.0 / y, 1.0 / x, xy);
  }

  /** `c·x / (x − 1)` falls as `x` grows beyond 1, for a positive `c`. */
  lemma ScaledRatioFalls(c: real, a: real, b: real)
    requires c > 0.0 && 1.0 < a < b
    ensures c * b / (b - 1.0) < c * a / (a - 1.0)
  {
    RatioFalls(a, b);
    assert c * b / (b - 1.0) == c * (b / (b - 1.0));
    assert c * a / (a - 1.0) == c * (a / (a - 1.0));
    MulLess(c, b / (b - 1.0), a / (a - 1.0));
  }

  /** Two payments that share `p` over `x` and over `x + 1` months: the second is smaller. */
  lemma ShareStepFalls(p: real, x: real, m1: real, m2: real)
    requires p > 0.0 && x >= 1.0
    requires m1 * x == p && m2 * (x + 1.0) == p
    ensures m2 < m1
  {
    DivideOut(m1, p, x);
    DivideOut(m2, p, x + 1.0);
    ShareFalls(p, x);
  }

  /** Two annuity payments on `p` at rate `i` for growth factors `a < b` beyond 1: the one for `b` is smaller. */
  lemma AnnuityStepFalls(p: real, i: real, a: real, b: real, m1: real, m2: real)
    requires p > 0.0 && i > 0.0 && 1.0 < a < b
    requires m1 * (a - 1.0) == p * i * a && m2 * (b - 1.0) == p * i * b
    ensures m2 < m1
  {
    var c := p * i;
    MulLess(p, 0.0, i);
    DivideOut(m1, c * a, a - 1.0);
    DivideOut(m2, c * b, b - 1.0);
    ScaledRatioFalls(c, a, b);
  }

  /** At a positive rate the growth factor exceeds 1 and rises with every month. */
  lemma GrowthRises(i: real, n: nat)
    requires i > 0.0 && n >= 1
    ensures 1.0 < Pow(1.0 + i, n) < Pow(1.0 + i, n + 1)
  {
    var a := Pow(1.0 + i, n);
    PowAtLeastOne(1.0 + i, n);
    assert Pow(1.0 + i, n + 1) - a == i * a;
  }

  /** At a zero rate, one more month lowers the share of a positive principal. */
  lemma PaymentDecreasesAtZeroRate(p: real, n: nat)
    requires n >= 1 && p > 0.0
    ensures MonthlyPayment(p, n + 1, 0.0) < MonthlyPayment(p, n, 0.0)
  {
    assert (n + 1) as real == n as real + 1.0;
    ShareStepFalls(p, n as real, MonthlyPayment(p, n, 0.0), MonthlyPayment(p, n + 1, 0.0));
  }

  /** At a positive rate, one more month lowers the annuity payment on a positive principal. */
  lemma PaymentDecreasesAtPositiveRate(p: real, n: nat, i: real)
    requires n >= 1 && i > 0.0 && p > 0.0
    ensures MonthlyPayment(p, n + 1, i) < MonthlyPayment(p, n, i)
  {
    GrowthRises(i, n);
    PaymentEquation(p, n, i);
    PaymentEquation(p, n + 1, i);
    AnnuityStepFalls(p, i, Pow(1.0 + i, n), Pow(1.0 + i, n + 1), MonthlyPayment(p, n, i), MonthlyPayment(p, n + 1, i));
  }

  /** At a positive or zero rate, one more month lowers the monthly payment on a positive principal. */
  lemma PaymentDecreasesWithDuration(p: real, n: nat, i: real)
    requires n >= 1 && i >= 0.0 && p > 0.0
    ensures MonthlyPayment(p, n + 1, i) < MonthlyPayment(p, n, i)
  {
    if i == 0.0 {
      PaymentDecreasesAtZeroRate(p, n);
    } else {
      PaymentDecreasesAtPositiveRate(p, n, i);
    }
  }

  /** The calculator's state: the two slider positions and the selected currency code. */
  datatype Calc = Calc(amount: int, duration: int, currency: string)

  const Initial: Calc := Calc(10000, 24, "EUR")

  /** Positions the amount slider can take: 1000 to 100000 in steps of 500. */
  predicate ValidAmount(a: int) {
    1000 <= a <= 100000 && (a - 1000) % 500 == 0
  }

  /** Positions the duration slider can take: 6 to 60 months. */
  predicate ValidDuration(d: int) {
    6 <= d <= 60
  }

  /** Codes the currency selector can hold: the initial "EUR" and the codes of the table's items. */
  predicate ValidCurrency(code: string) {
    exists k :: 0 <= k < |Currencies| && Currencies[k].code == code
  }

  predicate Valid(s: Calc) {
    ValidAmount(s.amount) && ValidDuration(s.duration) && ValidCurrency(s.currency)
  }

  /** The triple `onApply` receives. */
  datatype LoanData = LoanData(amount: int, duration: int, currency: string)

  datatype Event = SlideAmount(value: int) | SlideDuration(value: int) | ChooseCurrency(code: string) | ApplyClicked

  /** The sliders only produce their own positions; the selector only offers the table's codes. */
  predicate Enabled(e: Event): (b: bool)
    ensures b && e.SlideAmount? ==> 1000 <= e.value <= 100000 && e.value % 500 == 0
    ensures b && e.SlideDuration? ==> 6 <= e.value <= 60
    ensures b && e.ChooseCurrency? ==> Selected(e.code).code == e.code
  {
    match e
    case SlideAmount(a) => ValidAmount(a)
    case SlideDuration(d) => ValidDuration(d)
    case ChooseCurrency(code) => ValidCurrency(code)
    case ApplyClicked => true
  }

  /** One user action: the next state, and the triple passed to `onApply` when the button was pressed. */
  function Step(s: Calc, e: Event): (r: (Calc, Option<LoanData>))
    ensures e.ApplyClicked? <==> r.1.Some?
    ensures e.ApplyClicked? ==> r.0 == s && r.1 == Some(LoanData(s.amount, s.duration, s.currency))
    ensures e.SlideAmount? ==> r.0.amount == e.value && r.0.duration == s.duration && r.0.currency == s.currency
    ensures e.SlideDuration? ==> r.0.duration == e.value && r.0.amount == s.amount && r.0.currency == s.currency
    ensures e.ChooseCurrency? ==> r.0.currency == e.code && r.0.amount == s.amount && r.0.duration == s.duration
  {
    match e
    case SlideAmount(a) => (s.(amount := a), None)
    case SlideDuration(d) => (s.(duration := d), None)
    case ChooseCurrency(code) => (s.(currency := code), None)
    case ApplyClicked => (s, Some(LoanData(s.amount, s.duration, s.currency)))
  }

  /** The calculator starts in range, and its controls keep it there. */
  lemma StepKeepsValid(s: Calc, e: Event)
    requires Valid(s) && Enabled(e)
    ensures Valid(Step(s, e).0)
  {
  }

  lemma InitialIsValid()
    ensures Valid(Initial)
  {
    assert Currencies[0].code == Initial.currency;
  }

  /** A state the calculator can reach holds one of the five codes of the table, so its rate never falls back. */
  lemma ValidCurrencyIsListed(s: Calc)
    requires Valid(s)
    ensures s.currency in ["EUR", "USD", "GBP", "CHF", "JPY"]
    ensures Selected(s.currency).code == s.currency
  {
    var k :| 0 <= k < |Currencies| && Currencies[k].code == s.currency;
    assert Currencies[0].code == "EUR" && Currencies[1].code == "USD" && Currencies[2].code == "GBP";
    assert Currencies[3].code == "CHF" && Currencies[4].code == "JPY";
  }

  /** What the result area shows. */
  datatype Quote = Quote(monthlyPayment: real, totalPayback: real)

  /** The result area for a positive principal and rate. */
  function QuoteFor(p: real, n: nat, i: real): (q: Quote)
    requires n >= 1 && i > 0.0 && p > 0.0
    ensures q.totalPayback == q.monthlyPayment * (n as real)
    ensures q.monthlyPayment > 0.0 && q.totalPayback > p
  {
    PaymentsCoverPrincipal(p, n, i);
    var m := MonthlyPayment(p, n, i);
    Quote(m, m * (n as real))
  }

  /**
   * The result area for the current state: the amortised monthly payment at
   * the selected currency's monthly rate, and the total payback
   * `monthlyPayment * duration`, which always exceeds the amount because
   * every rate in the table is positive.
   */
  function QuoteOf(s: Calc): (q: Quote)
    requires Valid(s)
    ensures q.monthlyPayment > 0.0 && q.totalPayback > s.amount as real
  {
    MonthlyRatePositive(s.currency);
    QuoteFor(s.amount as real, s.duration, MonthlyRate(s.currency))
  }

  /** Paying the quoted amount every month for the chosen duration repays the loan with its interest exactly. */
  lemma QuoteRetiresLoan(s: Calc)
    requires Valid(s)
    ensures Balance(s.amount as real, MonthlyRate(s.currency), QuoteOf(s).monthlyPayment, s.duration) == 0.0
  {
    MonthlyRatePositive(s.currency);
    PaymentRetiresLoan(s.amount as real, s.duration, MonthlyRate(s.currency));
  }
}

=== FILE: flow.dfy ===
/**
 * Client and server together: the body the application form sends
 * (client/src/components/ApplicationForm.tsx) as the submit handler
 * (server/routes.ts) parses and stores it.
 */
module Flow {
  import opened Wrappers
  import opened Schema
  import Server
  import Wizard

  /** The validator accepts each value of the body the form sends. */
  predicate AcceptsPayload(v: Validator, rules: Wizard.Rules, values: Wizard.FormValues, fileUrl: string)
    requires Wizard.FullValid(rules, values)
  {
    var body := Wizard.Payload(rules, values, fileUrl);
    forall c :: c in InsertColumns ==> Key(c) in body && v.accepts(c, body[Key(c)])
  }

  /** The form's coerced income. */
  function FormIncome(rules: Wizard.Rules, values: Wizard.FormValues): real
    requires Wizard.FullValid(rules, values)
  {
    assert Wizard.FieldValid(rules, values, Wizard.Income);
    Wizard.Coerce(rules, values.income).value
  }

  /** The form's body holds its text values under the schema's keys. */
  lemma PayloadTextValues(rules: Wizard.Rules, values: Wizard.FormValues, fileUrl: string)
    requires Wizard.FullValid(rules, values)
    ensures var body := Wizard.Payload(rules, values, fileUrl);
      && "firstName" in body && body["firstName"] == JString(values.firstName)
      && "lastName" in body && body["lastName"] == JString(values.lastName)
      && "email" in body && body["email"] == JString(values.email)
      && "currency" in body && body["currency"] == JString(values.currency)
  {
  }

  /** The form's body holds the optional columns as strings: the upload's url, the IBAN and the payment method. */
  lemma PayloadOptionalValues(rules: Wizard.Rules, values: Wizard.FormValues, fileUrl: string)
    requires Wizard.FullValid(rules, values)
    ensures var body := Wizard.Payload(rules, values, fileUrl);
      && "identityFileUrl" in body && body["identityFileUrl"] == JString(fileUrl)
      && "iban" in body && body["iban"] == JString(values.iban)
      && "paymentMethodType" in body && body["paymentMethodType"] == JString(values.paymentMethodType)
  {
  }

  /** The form's body holds income as the coerced number, amount and duration as whole numbers. */
  lemma PayloadNumberValues(rules: Wizard.Rules, values: Wizard.FormValues, fileUrl: string)
    requires Wizard.FullValid(rules, values)
    ensures var body := Wizard.Payload(rules, values, fileUrl);
      && "income" in body && body["income"] == JNumber(FormIncome(rules, values))
      && "amount" in body && body["amount"] == JNumber(values.amount as real)
      && "duration" in body && body["duration"] == JNumber(values.duration as real)
  {
  }

  /** Every insert column finds a non-null value of its type in the form's body. */
  lemma PayloadHasEveryColumn(rules: Wizard.Rules, values: Wizard.FormValues, fileUrl: string, c: Column)
    requires Wizard.FullValid(rules, values) && c in InsertColumns
    ensures var body := Wizard.Payload(rules, values, fileUrl);
      Key(c) in body && body[Key(c)] != JNull &&
      (c != Income ==> KindOk(TypeOf(c), body[Key(c)]))
  {
    PayloadTextValues(rules, values, fileUrl);
    PayloadOptionalValues(rules, values, fileUrl);
    PayloadNumberValues(rules, values, fileUrl);
  }

  /** With a whole income and values the validator accepts, the form's body raises no issue. */
  lemma PayloadParses(v: Validator, rules: Wizard.Rules, values: Wizard.FormValues, fileUrl: string)
    requires Wizard.FullValid(rules, values)
    requires Integral(FormIncome(rules, values))
    requires AcceptsPayload(v, rules, values, fileUrl)
    ensures ParseInsert(v, Wizard.Payload(rules, values, fileUrl)) == Success(ReadInput(Wizard.Payload(rules, values, fileUrl)))
  {
    var body := Wizard.Payload(rules, values, fileUrl);
    PayloadNumberValues(rules, values, fileUrl);
    forall c | c in InsertColumns ensures ColumnIssue(v, c, body).None? {
      PayloadHasEveryColumn(rules, values, fileUrl, c);
    }
  }


  /** The text values the server reads from a body holding the form's strings under the schema's keys. */
  lemma ReadsBackText(body: Body, values: Wizard.FormValues)
    requires && "firstName" in body && body["firstName"] == JString(values.firstName)
             && "lastName" in body && body["lastName"] == JString(values.lastName)
             && "email" in body && body["email"] == JString(values.email)
             && "currency" in body && body["currency"] == JString(values.currency)
    ensures var input := ReadInput(body);
      && input.firstName == values.firstName && input.lastName == values.lastName
      && input.email == values.email && input.currency == values.currency
  {
    ReadTextKey(body, FirstName, values.firstName);
    ReadTextKey(body, LastName, values.lastName);
    ReadTextKey(body, Email, values.email);
    ReadTextKey(body, Currency, values.currency);
  }

  /** The optional values the server reads from a body holding them as strings: given, never absent or null. */
  lemma ReadsBackOptional(body: Body, values: Wizard.FormValues, fileUrl: string)
    requires && "identityFileUrl" in body && body["identityFileUrl"] == JString(fileUrl)
             && "iban" in body && body["iban"] == JString(values.iban)
             && "paymentMethodType" in body && body["paymentMethodType"] == JString(values.paymentMethodType)
    ensures var input := ReadInput(body);
      && input.identityFileUrl == Given(fileUrl) && input.iban == Given(values.iban)
      && input.paymentMethodType == Given(values.paymentMethodType)
  {
    ReadTextKey(body, IdentityFileUrl, fileUrl);
    ReadTextKey(body, Iban, values.iban);
    ReadTextKey(body, PaymentMethodType, values.paymentMethodType);
  }

  /**
   * The whole numbers read from a body holding the form's numbers: amount and
   * duration as sent, and income as sent when it is whole. `ReadInput` is
   * total and floors a fractional income, but the parse never gets that far
   * with one (see `FractionalIncomeIsRefused`).
   */
  lemma ReadsBackNumbers(body: Body, values: Wizard.FormValues, income: real)
    requires && "income" in body && body["income"] == JNumber(income)
             && "amount" in body && body["amount"] == JNumber(values.amount as real)
             && "duration" in body && body["duration"] == JNumber(values.duration as real)
    ensures var input := ReadInput(body);
      && input.amount == values.amount && input.duration == values.duration
      && (Integral(income) ==> input.income as real == income)
      && input.income == income.Floor
  {
    ReadNumberKey(body, Income, income);
    ReadNumberKey(body, Amount, values.amount as real);
    ReadNumberKey(body, Duration, values.duration as real);
  }

  /** What the server reads from the form's body. */
  lemma PayloadReadsBack(rules: Wizard.Rules, values: Wizard.FormValues, fileUrl: string)
    requires Wizard.FullValid(rules, values)
    ensures var input := ReadInput(Wizard.Payload(rules, values, fileUrl));
      && input.firstName == values.firstName && input.lastName == values.lastName && input.email == values.email
      && (Integral(FormIncome(rules, values)) ==> input.income as real == FormIncome(rules, values))
      && input.income == FormIncome(rules, values).Floor
      && input.identityFileUrl == Given(fileUrl)
      && input.amount == values.amount && input.duration == values.duration && input.currency == values.currency
      && input.iban == Given(values.iban)
      && input.paymentMethodType == Given(values.paymentMethodType)
  {
    var body := Wizard.Payload(rules, values, fileUrl);
    PayloadTextValues(rules, values, fileUrl);
    PayloadOptionalValues(rules, values, fileUrl);
    PayloadNumberValues(rules, values, fileUrl);
    ReadsBackText(body, values);
    ReadsBackOptional(body, values, fileUrl);
    ReadsBackNumbers(body, values, FormIncome(rules, values));
  }

  /**
   * A completed form whose income is a whole number, and whose values the
   * validator accepts, is stored as sent: the record carries the upload's url
   * (the empty string when no file was chosen, not null), the form's IBAN and
   * payment method, and starts pending.
   */
  lemma FormSubmissionIsStored(v: Validator, rules: Wizard.Rules, values: Wizard.FormValues, fileUrl: string,
                               st: Server.Store, now: int)
    requires Wizard.FullValid(rules, values)
    requires Integral(FormIncome(rules, values))
    requires AcceptsPayload(v, rules, values, fileUrl)
    ensures var (resp, st') := Server.HandleSubmit(v, st, JObject(Wizard.Payload(rules, values, fileUrl)), now, false);
      && resp.status == 201
      && resp.body.record.firstName == values.firstName
      && resp.body.record.income as real == FormIncome(rules, values)
      && resp.body.record.amount == values.amount && resp.body.record.duration == values.duration
      && resp.body.record.identityFileUrl == Some(fileUrl)
      && resp.body.record.iban == Some(values.iban)
      && resp.body.record.paymentMethodType == Some(values.paymentMethodType)
      && resp.body.record.status == Some("pending")
      && st'.rows == st.rows + [resp.body.record]
  {
    var body := Wizard.Payload(rules, values, fileUrl);
    PayloadParses(v, rules, values, fileUrl);
    PayloadReadsBack(rules, values, fileUrl);
    Server.ValidSubmissionIsStored(v, st, body, now);
  }

  /**
   * The form only asks that income coerce to at least 1, while the column is
   * an integer: a fractional income passes every step of the form and is then
   * refused by the server, which names `income`.
   */
  lemma FractionalIncomeIsRefused(v: Validator, rules: Wizard.Rules, values: Wizard.FormValues, fileUrl: string,
                                  st: Server.Store, now: int, storeFails: bool)
    requires Wizard.FullValid(rules, values)
    requires !Integral(FormIncome(rules, values))
    requires AcceptsPayload(v, rules, values, fileUrl)
    ensures var (resp, st') := Server.HandleSubmit(v, st, JObject(Wizard.Payload(rules, values, fileUrl)), now, storeFails);
      && resp.status == 400
      && resp.body.validation.field == Some("income")
      && st' == st
  {
    var body := Wizard.Payload(rules, values, fileUrl);
    PayloadHasEveryColumn(rules, values, fileUrl, FirstName);
    PayloadHasEveryColumn(rules, values, fileUrl, LastName);
    PayloadHasEveryColumn(rules, values, fileUrl, Email);
    PayloadNumberValues(rules, values, fileUrl);
    assert ColumnIssue(v, Income, body).Some?;
    Server.IncomeIssueIsReported(v, st, body, now, storeFails);
  }
}

=== FILE: home.dfy ===
/**
 * The home page (client/src/pages/Home.tsx): `loanData` decides whether the
 * calculator or the application form is shown, and the page composes the two.
 *
 * Switching views unmounts one component and mounts the other afresh, so a
 * component's local state does not survive being hidden: the form always
 * starts from its defaults, and the calculator reappears at 10000 / 24 / EUR.
 */
module Home {
  import opened Wrappers
  import Calculator
  import Wizard

  /** The page's only state: the triple chosen in the calculator, or null. */
  datatype Home = Home(loanData: Option<Calculator.LoanData>)

  const Initial: Home := Home(None)

  datatype View = CalculatorView | FormView(initialData: Calculator.LoanData)

  /** The component rendered for a state, and the `initialData` the form receives. */
  function ViewOf(h: Home): (v: View)
    ensures v.CalculatorView? <==> h.loanData.None?
    ensures v.FormView? ==> v.initialData == h.loanData.value
  {
    match h.loanData
    case None => CalculatorView
    case Some(data) => FormView(data)
  }

  /** `handleApply`: keep the calculator's triple, which switches to the form. */
  function HandleApply(h: Home, amount: int, duration: int, currency: string): (r: Home)
    ensures ViewOf(r) == FormView(Calculator.LoanData(amount, duration, currency))
  {
    Home(Some(Calculator.LoanData(amount, duration, currency)))
  }

  /** The form's `onBack`: clear `loanData`, which switches back to the calculator. */
  function OnBack(h: Home): (r: Home)
    ensures ViewOf(r) == CalculatorView
  {
    Home(None)
  }

  lemma InitialShowsCalculator()
    ensures ViewOf(Initial) == CalculatorView
  {
  }

  /** The mounted component with its own state. */
  datatype Screen =
    | CalculatorScreen(state: Calculator.Calc)
    | FormScreen(data: Calculator.LoanData, wizard: Wizard.Wizard)

  /** The page state a screen belongs to. */
  function HomeOf(s: Screen): Home {
    match s
    case CalculatorScreen(_) => Home(None)
    case FormScreen(data, _) => Home(Some(data))
  }

  /** What is mounted when the page renders `h` afresh. */
  function Mount(h: Home): (s: Screen)
    ensures HomeOf(s) == h
    ensures ViewOf(h) == CalculatorView ==> s == CalculatorScreen(Calculator.Initial)
    ensures ViewOf(h).FormView? ==> s == FormScreen(ViewOf(h).initialData, Wizard.Init(ViewOf(h).initialData))
  {
    match h.loanData
    case None => CalculatorScreen(Calculator.Initial)
    case Some(data) => FormScreen(data, Wizard.Init(data))
  }

  const AppInit: Screen := Mount(Initial)

  datatype AppEvent = OnCalculator(calcEvent: Calculator.Event) | OnForm(formEvent: Wizard.Event)

  /**
   * One user action on the page. An action on a control that is not rendered
   * or is disabled does nothing; Apply and Back at step 0 go through the
   * page's handlers and remount.
   */
  function AppStep(rules: Wizard.Rules, s: Screen, e: AppEvent): (r: Screen)
    ensures s.CalculatorScreen? && r.FormScreen? ==>
      e == OnCalculator(Calculator.ApplyClicked) && r.wizard == Wizard.Init(r.data)
    ensures s.FormScreen? && r.CalculatorScreen? ==>
      e == OnForm(Wizard.Back) && s.wizard.step == 0 && r == CalculatorScreen(Calculator.Initial)
  {
    match s
    case CalculatorScreen(c) =>
      if !e.OnCalculator? || !Calculator.Enabled(e.calcEvent) then s
      else
        var (c', out) := Calculator.Step(c, e.calcEvent);
        if out.None? then CalculatorScreen(c')
        else Mount(HandleApply(HomeOf(s), out.value.amount, out.value.duration, out.value.currency))
    case FormScreen(d, w) =>
      if !e.OnForm? || !Wizard.Enabled(w, e.formEvent) then s
      else
        var (w', effect) := Wizard.Dispatch(rules, w, e.formEvent);
        if effect == Wizard.CallOnBack then Mount(OnBack(HomeOf(s))) else FormScreen(d, w')
  }

  /** Apply opens a fresh form holding exactly the calculator's current triple. */
  lemma ApplyOpensFreshForm(rules: Wizard.Rules, c: Calculator.Calc)
    ensures var d := Calculator.LoanData(c.amount, c.duration, c.currency);
      && AppStep(rules, CalculatorScreen(c), OnCalculator(Calculator.ApplyClicked)) == FormScreen(d, Wizard.Init(d))
      && ViewOf(HomeOf(AppStep(rules, CalculatorScreen(c), OnCalculator(Calculator.ApplyClicked)))) == FormView(d)
  {
  }

  /** Back on the first step shows the calculator again, back at its defaults. */
  lemma BackRestartsCalculator(rules: Wizard.Rules, d: Calculator.LoanData, w: Wizard.Wizard)
    requires w.step == 0
    ensures AppStep(rules, FormScreen(d, w), OnForm(Wizard.Back)) == CalculatorScreen(Calculator.Initial)
    ensures HomeOf(AppStep(rules, FormScreen(d, w), OnForm(Wizard.Back))) == Initial
  {
  }

  /**
   * What holds on every screen: the calculator stays in its slider ranges with
   * a currency from the table, and the form's triple is one the calculator
   * could show, which the wizard keeps.
   */
  predicate AppInv(s: Screen) {
    match s
    case CalculatorScreen(c) => Calculator.Valid(c)
    case FormScreen(d, w) =>
      Calculator.Valid(Calculator.Calc(d.amount, d.duration, d.currency)) && Wizard.Inv(w, d)
  }

  lemma AppStepKeepsInv(rules: Wizard.Rules, s: Screen, e: AppEvent)
    requires AppInv(s)
    ensures AppInv(AppStep(rules, s, e))
  {
    match s
    case CalculatorScreen(c) =>
      if e.OnCalculator? && Calculator.Enabled(e.calcEvent) {
        Calculator.StepKeepsValid(c, e.calcEvent);
        var (c', out) := Calculator.Step(c, e.calcEvent);
        if out.Some? {
          Wizard.InitEstablishesInv(out.value);
        }
      }
    case FormScreen(d, w) =>
      if e.OnForm? && Wizard.Enabled(w, e.formEvent) {
        Wizard.DispatchKeepsInv(rules, w, e.formEvent, d);
        Calculator.InitialIsValid();
      }
  }

  function AppRun(rules: Wizard.Rules, s: Screen, events: seq<AppEvent>): Screen
    decreases |events|
  {
    if |events| == 0 then s else AppRun(rules, AppStep(rules, s, events[0]), events[1..])
  }

  /**
   * From the first render, whatever the user does, every form shown holds an
   * amount, duration and currency the calculator's controls could produce, and
   * its step stays within 0..3.
   */
  lemma {:induction false} AppRunKeepsInv(rules: Wizard.Rules, s: Screen, events: seq<AppEvent>)
    requires AppInv(s)
    ensures AppInv(AppRun(rules, s, events))
    decreases |events|
  {
    if |events| > 0 {
      AppStepKeepsInv(rules, s, events[0]);
      AppRunKeepsInv(rules, AppStep(rules, s, events[0]), events[1..]);
    }
  }

  lemma AppInitKeepsInv(rules: Wizard.Rules, events: seq<AppEvent>)
    ensures AppInit == CalculatorScreen(Calculator.Initial)
    ensures AppInv(AppRun(rules, AppInit, events))
  {
    Calculator.InitialIsValid();
    AppRunKeepsInv(rules, AppInit, events);
  }
}

=== FILE: schema.dfy ===
/**
 * The `loan_applications` table, the insert schema derived from it, and the
 * record a successful insert produces (shared/schema.ts).
 *
 * A request body is a JSON object. The structure of the insert schema is
 * modelled exactly: which keys it reads, which must be present, which may be
 * null, the column type each value must have, and that the first issue is
 * reported for the first failing column in declaration order. Any further
 * refinement the validation library attaches to a column type, and the
 * wording of its messages, is an abstract `Validator`.
 */
module Schema {
  import opened Wrappers

  /** A JSON value as it arrives in a request body. */
  datatype Json =
    | JNull
    | JBool(b: bool)
    | JNumber(n: real)
    | JString(s: string)
    | JArray(items: seq<Json>)
    | JObject(members: map<string, Json>)

  /** A JSON object: the parsed request body. */
  type Body = map<string, Json>

  /** The columns of `loan_applications`, in declaration order. */
  datatype Column =
    | Id | FirstName | LastName | Email | Income | IdentityFileUrl
    | Amount | Duration | Currency | Iban | PaymentMethodType | Status | CreatedAt

  datatype ColumnType = Serial | Text | Integer | Timestamp

  const Columns: seq<Column> :=
    [Id, FirstName, LastName, Email, Income, IdentityFileUrl,
     Amount, Duration, Currency, Iban, PaymentMethodType, Status, CreatedAt]

  /** The property name a column has in JSON bodies and records. */
  function Key(c: Column): string {
    match c
    case Id => "id"
    case FirstName => "firstName"
    case LastName => "lastName"
    case Email => "email"
    case Income => "income"
    case IdentityFileUrl => "identityFileUrl"
    case Amount => "amount"
    case Duration => "duration"
    case Currency => "currency"
    case Iban => "iban"
    case PaymentMethodType => "paymentMethodType"
    case Status => "status"
    case CreatedAt => "createdAt"
  }

  function TypeOf(c: Column): ColumnType {
    match c
    case Id => Serial
    case Income | Amount | Duration => Integer
    case CreatedAt => Timestamp
    case _ => Text
  }

  /** Declared `.notNull()`, or a primary key. */
  predicate NotNull(c: Column) {
    c in {Id, FirstName, LastName, Email, Income, Amount, Duration, Currency}
  }

  /** The store fills the column when the insert leaves it out. */
  predicate HasDefault(c: Column) {
    c in {Id, PaymentMethodType, Status, CreatedAt}
  }

  /** The columns the insert schema omits: the client can never set them. */
  predicate Omitted(c: Column) {
    c in {Id, CreatedAt, Status}
  }

  /** The columns of the insert schema, in declaration order. */
  const InsertColumns: seq<Column> :=
    [FirstName, LastName, Email, Income, IdentityFileUrl, Amount, Duration, Currency, Iban, PaymentMethodType]

  /** A key of the insert schema must be present when its column is not null and has no default. */
  predicate Required(c: Column) {
    NotNull(c) && !HasDefault(c)
  }

  /** A key of the insert schema may carry `null` when its column is nullable. */
  predicate Nullable(c: Column) {
    !NotNull(c)
  }

  /** The insert schema is the table without its omitted columns, in the same order. */
  lemma InsertColumnsAreTheNonOmitted()
    ensures InsertColumns == Columns[1..|Columns| - 2]
    ensures forall c :: c in InsertColumns <==> c in Columns && !Omitted(c)
  {
  }

  /** The required keys are exactly the seven not-null columns the client supplies. */
  lemma RequiredInsertKeys()
    ensures forall c :: c in InsertColumns && Required(c) <==>
      c in {FirstName, LastName, Email, Income, Amount, Duration, Currency}
    ensures forall c :: c in InsertColumns && Nullable(c) <==> c in {IdentityFileUrl, Iban, PaymentMethodType}
  {
  }

  /** The keys of different columns differ, so a body key names at most one column. */
  lemma KeysDistinct(c: Column, d: Column)
    requires c != d
    ensures Key(c) != Key(d)
  {
  }

  /** Integral JSON numbers are the ones an integer column can hold. */
  predicate Integral(r: real) {
    r == r.Floor as real
  }

  /** The JSON shape a column type accepts. */
  predicate KindOk(t: ColumnType, j: Json) {
    match t
    case Text => j.JString?
    case Integer => j.JNumber? && Integral(j.n)
    case Serial | Timestamp => false
  }

  /**
   * The validation library's share of the work: any refinement beyond the
   * column type (`accepts`), the message of each issue (`message`, given
   * `None` for a missing key), and the message of the issue a body that is
   * not an object raises (`notObject`).
   */
  datatype Validator = Validator(
    accepts: (Column, Json) -> bool,
    message: (Column, Option<Json>) -> string,
    notObject: Json -> string)

  /** One failed check: the message and the path of keys leading to the value. */
  datatype Issue = Issue(message: string, path: seq<string>)

  /** The issue, if any, the insert schema reports for column `c` of `body`. */
  function ColumnIssue(v: Validator, c: Column, body: Body): (r: Option<Issue>)
    ensures r.Some? ==> r.value.path == [Key(c)]
    ensures r.None? && Required(c) ==> Key(c) in body && KindOk(TypeOf(c), body[Key(c)])
    ensures r.None? && Key(c) in body && body[Key(c)] != JNull ==>
      KindOk(TypeOf(c), body[Key(c)]) && v.accepts(c, body[Key(c)])
    ensures Key(c) !in body && !Required(c) ==> r.None?
    ensures Key(c) in body && body[Key(c)] == JNull ==> (r.None? <==> Nullable(c))
    ensures Key(c) in body && body[Key(c)] != JNull && KindOk(TypeOf(c), body[Key(c)]) && v.accepts(c, body[Key(c)])
      ==> r.None?
  {
    var key := Key(c);
    if key !in body then
      if Required(c) then Some(Issue(v.message(c, None), [key])) else None
    else if body[key] == JNull then
      if Nullable(c) then None else Some(Issue(v.message(c, Some(JNull)), [key]))
    else if KindOk(TypeOf(c), body[key]) && v.accepts(c, body[key]) then None
    else Some(Issue(v.message(c, Some(body[key])), [key]))
  }

  /** The issues for `cols`, in column order. */
  function Issues(v: Validator, cols: seq<Column>, body: Body): (r: seq<Issue>)
    ensures |r| == 0 <==> forall k :: 0 <= k < |cols| ==> ColumnIssue(v, cols[k], body).None?
  {
    if |cols| == 0 then []
    else
      (match ColumnIssue(v, cols[0], body) case Some(i) => [i] case None => [])
      + Issues(v, cols[1..], body)
  }

  /** A value of an optional key: left out, explicitly null, or given. */
  datatype Opt<+T> = Absent | Null | Given(value: T)

  /** The typed output of a successful parse of the insert schema. */
  datatype InsertInput = InsertInput(
    firstName: string,
    lastName: string,
    email: string,
    income: int,
    identityFileUrl: Opt<string>,
    amount: int,
    duration: int,
    currency: string,
    iban: Opt<string>,
    paymentMethodType: Opt<string>)

  function TextAt(body: Body, key: string): string {
    if key in body && body[key].JString? then body[key].s else ""
  }

  function IntegerAt(body: Body, key: string): int {
    if key in body && body[key].JNumber? then body[key].n.Floor else 0
  }

  function OptTextAt(body: Body, key: string): Opt<string> {
    if key !in body then Absent
    else if body[key] == JNull then Null
    else Given(TextAt(body, key))
  }

  /** The typed values a body holds for the insert schema's keys. */
  function ReadInput(body: Body): InsertInput {
    InsertInput(
      TextAt(body, Key(FirstName)),
      TextAt(body, Key(LastName)),
      TextAt(body, Key(Email)),
      IntegerAt(body, Key(Income)),
      OptTextAt(body, Key(IdentityFileUrl)),
      IntegerAt(body, Key(Amount)),
      IntegerAt(body, Key(Duration)),
      TextAt(body, Key(Currency)),
      OptTextAt(body, Key(Iban)),
      OptTextAt(body, Key(PaymentMethodType)))
  }

  /** Every column of the insert schema passes its check. */
  predicate AllColumnsPass(v: Validator, body: Body) {
    forall c :: c in InsertColumns ==> ColumnIssue(v, c, body).None?
  }

  /**
   * `insertLoanApplicationSchema.parse(body)`: unknown keys are dropped, and
   * as soon as one column fails the parse fails with the first issue of each
   * failing column, in column order.
   */
  function ParseInsert(v: Validator, body: Body): (r: Result<InsertInput, seq<Issue>>)
    ensures r.Success? <==> |Issues(v, InsertColumns, body)| == 0
    ensures r.Failure? ==> r.error == Issues(v, InsertColumns, body)
    ensures r.Success? ==> r.value == ReadInput(body)
  {
    if AllColumnsPass(v, body) then Success(ReadInput(body)) else Failure(Issues(v, InsertColumns, body))
  }

  /**
   * The parse of a whole request body. The object check comes first: a body
   * that is not an object (an array, say) fails with one issue whose path is
   * empty, and no column is checked.
   */
  function Parse(v: Validator, req: Json): (r: Result<InsertInput, seq<Issue>>)
    ensures req.JObject? ==> r == ParseInsert(v, req.members)
    ensures !req.JObject? ==> r.Failure? && r.error == [Issue(v.notObject(req), [])]
  {
    match req
    case JObject(body) => ParseInsert(v, body)
    case _ => Failure([Issue(v.notObject(req), [])])
  }

  /** Two bodies that agree on every key of the insert schema. */
  predicate AgreeOnInsertKeys(b1: Body, b2: Body) {
    forall c :: c in InsertColumns ==>
      (Key(c) in b1 <==> Key(c) in b2) && (Key(c) in b1 ==> b1[Key(c)] == b2[Key(c)])
  }

  lemma {:induction false} IssuesDependOnlyOnColumns(v: Validator, cols: seq<Column>, b1: Body, b2: Body)
    requires forall c :: c in cols ==>
      (Key(c) in b1 <==> Key(c) in b2) && (Key(c) in b1 ==> b1[Key(c)] == b2[Key(c)])
    ensures Issues(v, cols, b1) == Issues(v, cols, b2)
  {
    if |cols| > 0 {
      assert ColumnIssue(v, cols[0], b1) == ColumnIssue(v, cols[0], b2);
      IssuesDependOnlyOnColumns(v, cols[1..], b1, b2);
    }
  }

  lemma ReadersAgree(b1: Body, b2: Body, c: Column)
    requires c in InsertColumns && AgreeOnInsertKeys(b1, b2)
    ensures TextAt(b1, Key(c)) == TextAt(b2, Key(c))
    ensures IntegerAt(b1, Key(c)) == IntegerAt(b2, Key(c))
    ensures OptTextAt(b1, Key(c)) == OptTextAt(b2, Key(c))
  {
  }

  /** A key holding a string reads as that string, whether the column is required or optional. */
  lemma ReadTextKey(body: Body, c: Column, s: string)
    requires Key(c) in body && body[Key(c)] == JString(s)
    ensures TextAt(body, Key(c)) == s && OptTextAt(body, Key(c)) == Given(s)
  {
  }

  /** A key holding a number reads as its floor, which is the number itself when it is whole. */
  lemma ReadNumberKey(body: Body, c: Column, n: real)
    requires Key(c) in body && body[Key(c)] == JNumber(n)
    ensures IntegerAt(body, Key(c)) == n.Floor
    ensures Integral(n) ==> IntegerAt(body, Key(c)) as real == n
  {
  }

  /** The typed values read from two bodies that agree on the insert keys. */
  lemma ReadInputAgrees(b1: Body, b2: Body)
    requires AgreeOnInsertKeys(b1, b2)
    ensures ReadInput(b1) == ReadInput(b2)
  {
    ReadersAgree(b1, b2, FirstName);
    ReadersAgree(b1, b2, LastName);
    ReadersAgree(b1, b2, Email);
    ReadersAgree(b1, b2, Income);
    ReadersAgree(b1, b2, IdentityFileUrl);
    ReadersAgree(b1, b2, Amount);
    ReadersAgree(b1, b2, Duration);
    ReadersAgree(b1, b2, Currency);
    ReadersAgree(b1, b2, Iban);
    ReadersAgree(b1, b2, PaymentMethodType);
  }

  /** The parse reads only the keys of the insert schema. */
  lemma ParseReadsOnlyInsertKeys(v: Validator, b1: Body, b2: Body)
    requires AgreeOnInsertKeys(b1, b2)
    ensures ParseInsert(v, b1) == ParseInsert(v, b2)
  {
    forall c | c in InsertColumns ensures ColumnIssue(v, c, b1) == ColumnIssue(v, c, b2) {
    }
    assert AllColumnsPass(v, b1) == AllColumnsPass(v, b2);
    IssuesDependOnlyOnColumns(v, InsertColumns, b1, b2);
    ReadInputAgrees(b1, b2);
  }

  /** Whatever a body says about `id`, `status` or `createdAt` is ignored. */
  lemma ClientCannotSetServerFields(v: Validator, body: Body, id: Json, status: Json, createdAt: Json)
    ensures ParseInsert(v, body["id" := id]["status" := status]["createdAt" := createdAt]) == ParseInsert(v, body)
  {
    var b := body["id" := id]["status" := status]["createdAt" := createdAt];
    forall c | c in InsertColumns
      ensures (Key(c) in b <==> Key(c) in body) && (Key(c) in b ==> b[Key(c)] == body[Key(c)])
    {
      KeysDistinct(c, Id);
      KeysDistinct(c, Status);
      KeysDistinct(c, CreatedAt);
    }
    ParseReadsOnlyInsertKeys(v, b, body);
  }

  /** Column `c` of the insert schema raised no issue when the parse succeeded. */
  lemma NoIssueAfterSuccess(v: Validator, body: Body, c: Column)
    requires ParseInsert(v, body).Success? && c in InsertColumns
    ensures ColumnIssue(v, c, body).None?
  {
  }

  /** A successful parse found every required key, with a value of its column's type that the validator accepts. */
  lemma ParseSuccessHasRequiredKeys(v: Validator, body: Body, c: Column)
    requires ParseInsert(v, body).Success? && c in InsertColumns && Required(c)
    ensures Key(c) in body && KindOk(TypeOf(c), body[Key(c)]) && v.accepts(c, body[Key(c)])
  {
    NoIssueAfterSuccess(v, body, c);
  }

  /** A required column that raised no issue holds the value its reader returns. */
  lemma RequiredColumnReadsBack(v: Validator, body: Body, c: Column)
    requires Required(c) && ColumnIssue(v, c, body).None?
    ensures Key(c) in body
    ensures TypeOf(c) == Text ==> body[Key(c)] == JString(TextAt(body, Key(c)))
    ensures TypeOf(c) == Integer ==> body[Key(c)] == JNumber(IntegerAt(body, Key(c)) as real)
  {
  }

  /** The typed input of a successful parse holds exactly the body's text values. */
  lemma ParseSuccessCopiesTextKeys(v: Validator, body: Body)
    requires ParseInsert(v, body).Success?
    ensures var input := ParseInsert(v, body).value;
      && "firstName" in body && body["firstName"] == JString(input.firstName)
      && "lastName" in body && body["lastName"] == JString(input.lastName)
      && "email" in body && body["email"] == JString(input.email)
      && "currency" in body && body["currency"] == JString(input.currency)
  {
    assert ParseInsert(v, body).value == ReadInput(body);
    NoIssueAfterSuccess(v, body, FirstName);
    NoIssueAfterSuccess(v, body, LastName);
    NoIssueAfterSuccess(v, body, Email);
    NoIssueAfterSuccess(v, body, Currency);
    PassingTextKeysReadBack(v, body);
  }

  /** The required text columns that raised no issue hold exactly the strings the reader takes. */
  lemma PassingTextKeysReadBack(v: Validator, body: Body)
    requires ColumnIssue(v, FirstName, body).None? && ColumnIssue(v, LastName, body).None?
    requires ColumnIssue(v, Email, body).None? && ColumnIssue(v, Currency, body).None?
    ensures var input := ReadInput(body);
      && "firstName" in body && body["firstName"] == JString(input.firstName)
      && "lastName" in body && body["lastName"] == JString(input.lastName)
      && "email" in body && body["email"] == JString(input.email)
      && "currency" in body && body["currency"] == JString(input.currency)
  {
    assert Key(FirstName) == "firstName" && Key(LastName) == "lastName" && Key(Email) == "email" && Key(Currency) == "currency";
    RequiredColumnReadsBack(v, body, FirstName);
    RequiredColumnReadsBack(v, body, LastName);
    RequiredColumnReadsBack(v, body, Email);
    RequiredColumnReadsBack(v, body, Currency);
  }

  /** The typed input of a successful parse holds exactly the body's whole numbers. */
  lemma ParseSuccessCopiesIntegerKeys(v: Validator, body: Body)
    requires ParseInsert(v, body).Success?
    ensures var input := ParseInsert(v, body).value;
      && "income" in body && body["income"] == JNumber(input.income as real)
      && "amount" in body && body["amount"] == JNumber(input.amount as real)
      && "duration" in body && body["duration"] == JNumber(input.duration as real)
  {
    assert ParseInsert(v, body).value == ReadInput(body);
    NoIssueAfterSuccess(v, body, Income);
    NoIssueAfterSuccess(v, body, Amount);
    NoIssueAfterSuccess(v, body, Duration);
    PassingIntegerKeysReadBack(v, body);
  }

  /** The integer columns that raised no issue hold exactly the whole numbers the reader takes. */
  lemma PassingIntegerKeysReadBack(v: Validator, body: Body)
    requires ColumnIssue(v, Income, body).None? && ColumnIssue(v, Amount, body).None?
    requires ColumnIssue(v, Duration, body).None?
    ensures var input := ReadInput(body);
      && "income" in body && body["income"] == JNumber(input.income as real)
      && "amount" in body && body["amount"] == JNumber(input.amount as real)
      && "duration" in body && body["duration"] == JNumber(input.duration as real)
  {
    assert Key(Income) == "income" && Key(Amount) == "amount" && Key(Duration) == "duration";
    RequiredColumnReadsBack(v, body, Income);
    RequiredColumnReadsBack(v, body, Amount);
    RequiredColumnReadsBack(v, body, Duration);
  }

  /** A text column that raised no issue is absent, null or a string, as its reader says. */
  lemma OptionalColumnReadsBack(v: Validator, body: Body, c: Column)
    requires TypeOf(c) == Text && ColumnIssue(v, c, body).None?
    ensures var o := OptTextAt(body, Key(c));
      && (Key(c) !in body <==> o == Absent)
      && (Key(c) in body && body[Key(c)] == JNull <==> o == Null)
      && (Key(c) in body && body[Key(c)].JString? <==> o.Given?)
      && (o.Given? ==> body[Key(c)] == JString(o.value))
  {
  }

  /** An optional key is absent, null or a string exactly as the body has it. */
  lemma ParseSuccessCopiesOptionalKeys(v: Validator, body: Body)
    requires ParseInsert(v, body).Success?
    ensures var input := ParseInsert(v, body).value;
      && ("iban" !in body <==> input.iban == Absent)
      && ("iban" in body && body["iban"] == JNull <==> input.iban == Null)
      && ("iban" in body && body["iban"].JString? <==> input.iban.Given?)
      && (input.iban.Given? ==> body["iban"] == JString(input.iban.value))
      && ("paymentMethodType" !in body <==> input.paymentMethodType == Absent)
      && ("paymentMethodType" in body && body["paymentMethodType"] == JNull <==> input.paymentMethodType == Null)
      && ("paymentMethodType" in body && body["paymentMethodType"].JString? <==> input.paymentMethodType.Given?)
      && (input.paymentMethodType.Given? ==> body["paymentMethodType"] == JString(input.paymentMethodType.value))
      && ("identityFileUrl" !in body <==> input.identityFileUrl == Absent)
      && ("identityFileUrl" in body && body["identityFileUrl"] == JNull <==> input.identityFileUrl == Null)
      && ("identityFileUrl" in body && body["identityFileUrl"].JString? <==> input.identityFileUrl.Given?)
      && (input.identityFileUrl.Given? ==> body["identityFileUrl"] == JString(input.identityFileUrl.value))
  {
    assert ParseInsert(v, body).value == ReadInput(body);
    NoIssueAfterSuccess(v, body, IdentityFileUrl);
    NoIssueAfterSuccess(v, body, Iban);
    NoIssueAfterSuccess(v, body, PaymentMethodType);
    PassingOptionalKeysReadBack(v, body);
  }

  /** The optional columns that raised no issue are read as absent, null or the string, as the body has them. */
  lemma PassingOptionalKeysReadBack(v: Validator, body: Body)
    requires ColumnIssue(v, IdentityFileUrl, body).None? && ColumnIssue(v, Iban, body).None?
    requires ColumnIssue(v, PaymentMethodType, body).None?
    ensures var input := ReadInput(body);
      && ("iban" !in body <==> input.iban == Absent)
      && ("iban" in body && body["iban"] == JNull <==> input.iban == Null)
      && ("iban" in body && body["iban"].JString? <==> input.iban.Given?)
      && (input.iban.Given? ==> body["iban"] == JString(input.iban.value))
      && ("paymentMethodType" !in body <==> input.paymentMethodType == Absent)
      && ("paymentMethodType" in body && body["paymentMethodType"] == JNull <==> input.paymentMethodType == Null)
      && ("paymentMethodType" in body && body["paymentMethodType"].JString? <==> input.paymentMethodType.Given?)
      && (input.paymentMethodType.Given? ==> body["paymentMethodType"] == JString(input.paymentMethodType.value))
      && ("identityFileUrl" !in body <==> input.identityFileUrl == Absent)
      && ("identityFileUrl" in body && body["identityFileUrl"] == JNull <==> input.identityFileUrl == Null)
      && ("identityFileUrl" in body && body["identityFileUrl"].JString? <==> input.identityFileUrl.Given?)
      && (input.identityFileUrl.Given? ==> body["identityFileUrl"] == JString(input.identityFileUrl.value))
  {
    assert Key(IdentityFileUrl) == "identityFileUrl" && Key(Iban) == "iban" && Key(PaymentMethodType) == "paymentMethodType";
    OptionalColumnReadsBack(v, body, IdentityFileUrl);
    OptionalColumnReadsBack(v, body, Iban);
    OptionalColumnReadsBack(v, body, PaymentMethodType);
  }

  /** The first issue reported belongs to the first failing column; every earlier column passed. */
  lemma {:induction false} FirstIssueIsFirstFailingColumn(v: Validator, cols: seq<Column>, body: Body)
    requires |Issues(v, cols, body)| > 0
    ensures exists k ::
      && 0 <= k < |cols|
      && ColumnIssue(v, cols[k], body) == Some(Issues(v, cols, body)[0])
      && forall j :: 0 <= j < k ==> ColumnIssue(v, cols[j], body).None?
  {
    if ColumnIssue(v, cols[0], body).None? {
      FirstIssueIsFirstFailingColumn(v, cols[1..], body);
      var k :| 0 <= k < |cols[1..]|
        && ColumnIssue(v, cols[1..][k], body) == Some(Issues(v, cols[1..], body)[0])
        && forall j :: 0 <= j < k ==> ColumnIssue(v, cols[1..][j], body).None?;
      assert ColumnIssue(v, cols[k + 1], body) == Some(Issues(v, cols, body)[0]);
      forall j | 0 <= j < k + 1 ensures ColumnIssue(v, cols[j], body).None? {
        if j > 0 { assert cols[j] == cols[1..][j - 1]; }
      }
    } else {
      assert ColumnIssue(v, cols[0], body) == Some(Issues(v, cols, body)[0]);
    }
  }

  /** When columns before `k` pass and column `k` fails, the first issue reported is column `k`'s. */
  lemma {:induction false} FirstIssueAt(v: Validator, cols: seq<Column>, body: Body, k: nat)
    requires k < |cols| && ColumnIssue(v, cols[k], body).Some?
    requires forall j :: 0 <= j < k ==> ColumnIssue(v, cols[j], body).None?
    ensures |Issues(v, cols, body)| > 0 && Issues(v, cols, body)[0] == ColumnIssue(v, cols[k], body).value
  {
    if k > 0 {
      assert ColumnIssue(v, cols[0], body).None?;
      forall j | 0 <= j < k - 1 ensures ColumnIssue(v, cols[1..][j], body).None? {
        assert cols[1..][j] == cols[j + 1];
      }
      FirstIssueAt(v, cols[1..], body, k - 1);
    }
  }

  /** A failed parse reports at least one issue, and the first one names a column of the insert schema. */
  lemma ParseFailureNamesFirstFailingColumn(v: Validator, body: Body)
    requires ParseInsert(v, body).Failure?
    ensures var issues := ParseInsert(v, body).error;
      && |issues| > 0
      && exists k ::
        && 0 <= k < |InsertColumns|
        && issues[0].path == [Key(InsertColumns[k])]
        && ColumnIssue(v, InsertColumns[k], body) == Some(issues[0])
        && forall j :: 0 <= j < k ==> ColumnIssue(v, InsertColumns[j], body).None?
  {
    FirstIssueIsFirstFailingColumn(v, InsertColumns, body);
  }

  /** Leaving out a required key always fails the parse. */
  lemma MissingRequiredKeyFails(v: Validator, body: Body, c: Column)
    requires c in InsertColumns && Required(c)
    requires Key(c) !in body
    ensures ParseInsert(v, body).Failure?
  {
    var k :| 0 <= k < |InsertColumns| && InsertColumns[k] == c;
    assert ColumnIssue(v, InsertColumns[k], body).Some?;
  }

  /** A stored row of `loan_applications`. Nullable columns are `Option`s. */
  datatype LoanApplication = LoanApplication(
    id: int,
    firstName: string,
    lastName: string,
    email: string,
    income: int,
    identityFileUrl: Option<string>,
    amount: int,
    duration: int,
    currency: string,
    iban: Option<string>,
    paymentMethodType: Option<string>,
    status: Option<string>,
    createdAt: Option<int>)

  const DefaultPaymentMethodType := "bank_transfer"
  const DefaultStatus := "pending"

  /** The column value the store writes for an optional insert key with no default. */
  function NullableValue(o: Opt<string>): Option<string> {
    match o
    case Given(s) => Some(s)
    case _ => None
  }

  /**
   * The row the store writes for `input`: the serial id and the insert time
   * come from the store, a left-out `paymentMethodType` takes its default, and
   * `status` always takes its default because the insert schema omits it.
   */
  function Materialize(input: InsertInput, id: int, now: int): (r: LoanApplication)
    ensures r.id == id && r.createdAt == Some(now)
    ensures r.status == Some("pending")
    ensures input.paymentMethodType == Absent ==> r.paymentMethodType == Some("bank_transfer")
    ensures input.paymentMethodType == Null ==> r.paymentMethodType == None
    ensures input.paymentMethodType.Given? ==> r.paymentMethodType == Some(input.paymentMethodType.value)
    ensures (r.iban.Some? <==> input.iban.Given?) && (r.iban.Some? ==> r.iban.value == input.iban.value)
    ensures r.identityFileUrl.Some? <==> input.identityFileUrl.Given?
    ensures r.identityFileUrl.Some? ==> r.identityFileUrl.value == input.identityFileUrl.value
    ensures r.firstName == input.firstName && r.lastName == input.lastName && r.email == input.email
    ensures r.income == input.income && r.amount == input.amount && r.duration == input.duration
    ensures r.currency == input.currency
  {
    LoanApplication(
      id,
      input.firstName,
      input.lastName,
      input.email,
      input.income,
      NullableValue(input.identityFileUrl),
      input.amount,
      input.duration,
      input.currency,
      NullableValue(input.iban),
      match input.paymentMethodType
        case Absent => Some(DefaultPaymentMethodType)
        case Null => None
        case Given(s) => Some(s),
      Some(DefaultStatus),
      Some(now))
  }
}

=== FILE: server.dfy ===
/**
 * The two request handlers of the server (server/routes.ts): loan submission,
 * which parses the body against the insert schema before it touches the
 * store, and file upload, which reports where the stored file can be fetched.
 *
 * The store is the `loan_applications` table seen as an append-only sequence
 * of rows with a serial counter; whether an insert fails (the database being
 * unreachable, say) is an input. Multer's disk storage is represented only by
 * the file description it hands to the handler.
 */
module Server {
  import opened Wrappers
  import opened Strings
  import opened Schema
  import opened Api

  /** Multer's `limits.fileSize`: 5 MiB. */
  const MaxUploadBytes: nat := 5 * 1024 * 1024

  /** The rows of `loan_applications` and the next value of the `id` serial. */
  datatype Store = Store(rows: seq<LoanApplication>, nextId: int)

  /** Ids are positive, below the serial counter and strictly increasing, hence distinct. */
  predicate ValidStore(st: Store) {
    && st.nextId >= 1
    && (forall k :: 0 <= k < |st.rows| ==> 1 <= st.rows[k].id < st.nextId)
    && (forall i, j :: 0 <= i < j < |st.rows| ==> st.rows[i].id < st.rows[j].id)
  }

  /** Every row is still pending review. */
  predicate AllPending(st: Store) {
    forall k :: 0 <= k < |st.rows| ==> st.rows[k].status == Some("pending")
  }

  datatype StoreError = InsertFailed

  /** `storage.createLoanApplication(input)`: insert one row and return it. */
  function CreateLoanApplication(st: Store, input: InsertInput, now: int, fails: bool)
    : (r: Result<(LoanApplication, Store), StoreError>)
    ensures fails <==> r.Failure?
    ensures r.Success? ==> r.value.0 == Materialize(input, st.nextId, now)
    ensures r.Success? ==> r.value.1.rows == st.rows + [r.value.0] && r.value.1.nextId == st.nextId + 1
    ensures r.Success? ==> forall k :: 0 <= k < |st.rows| ==> st.rows[k].id != r.value.0.id || !ValidStore(st)
  {
    if fails then Failure(InsertFailed)
    else
      var row := Materialize(input, st.nextId, now);
      Success((row, Store(st.rows + [row], st.nextId + 1)))
  }

  /** The row stored under `id`. */
  function Lookup(st: Store, id: int): (r: Option<LoanApplication>)
    ensures r.Some? ==> r.value in st.rows && r.value.id == id
    ensures r.None? ==> forall k :: 0 <= k < |st.rows| ==> st.rows[k].id != id
    decreases |st.rows|
  {
    if |st.rows| == 0 then None
    else if st.rows[0].id == id then Some(st.rows[0])
    else Lookup(Store(st.rows[1..], st.nextId), id)
  }

  datatype Response = Response(status: int, body: ResponseBody)

  const InternalServerError := "Internal server error"
  const NoFileUploaded := "No file uploaded"

  /**
   * The `POST /api/loans` handler: parse, then store, then answer 201 with the
   * stored row. A schema failure answers 400 with the first issue's message
   * and its path joined by "."; any other failure answers 500.
   */
  function HandleSubmit(v: Validator, st: Store, req: Json, now: int, storeFails: bool): (r: (Response, Store))
    ensures r.0.status in {201, 400, 500}
    ensures r.0.status == 201 <==> Parse(v, req).Success? && !storeFails
    ensures r.0.status == 400 <==> Parse(v, req).Failure?
    ensures r.0.status != 201 ==> r.1 == st
    ensures r.0.status == 201 ==> r.0.body.RecordBody? && r.1.rows == st.rows + [r.0.body.record]
    ensures r.0.status == 201 ==> r.1.nextId == st.nextId + 1
  {
    match Parse(v, req)
    case Failure(issues) =>
      (Response(400, ValidationBody(ValidationError(issues[0].message, Some(Join(issues[0].path, "."))))), st)
    case Success(input) =>
      match CreateLoanApplication(st, input, now, storeFails)
      case Failure(_) => (Response(500, InternalBody(InternalError(InternalServerError))), st)
      case Success((row, st')) => (Response(201, RecordBody(row)), st')
  }

  /** What multer hands the upload handler: the generated name on disk and the client's name. */
  datatype UploadedFile = UploadedFile(filename: string, originalname: string)

  /** The `POST /api/upload` handler. */
  function HandleUpload(file: Option<UploadedFile>): (r: Response)
    ensures file.None? <==> r.status == 400
    ensures file.None? ==> r.body == ValidationBody(ValidationError("No file uploaded", None))
    ensures file.Some? ==> r.status == 200 && r.body.UploadBody?
    ensures file.Some? ==> r.body.upload.filename == file.value.originalname
    ensures file.Some? ==> |r.body.upload.url| == 9 + |file.value.filename|
    ensures file.Some? ==> r.body.upload.url[..9] == "/uploads/" && r.body.upload.url[9..] == file.value.filename
  {
    match file
    case None => Response(400, ValidationBody(ValidationError(NoFileUploaded, None)))
    case Some(f) => Response(200, UploadBody(UploadResponse("/uploads/" + f.filename, f.originalname)))
  }

  /** A valid body is stored as a new pending row with the next id and the insert time, and echoed with 201. */
  lemma ValidSubmissionIsStored(v: Validator, st: Store, body: Body, now: int)
    requires ParseInsert(v, body).Success?
    ensures var (resp, st') := HandleSubmit(v, st, JObject(body), now, false);
      var input := ParseInsert(v, body).value;
      && resp.status == 201
      && resp.body == RecordBody(Materialize(input, st.nextId, now))
      && st'.rows == st.rows + [resp.body.record]
      && resp.body.record.status == Some("pending")
      && resp.body.record.createdAt == Some(now)
      && resp.body.record.id == st.nextId
  {
  }

  /** A rejected body is answered 400, names the first failing column, and leaves the store alone. */
  lemma InvalidSubmissionNamesFirstFailingField(v: Validator, st: Store, body: Body, now: int, storeFails: bool)
    requires ParseInsert(v, body).Failure?
    ensures var (resp, st') := HandleSubmit(v, st, JObject(body), now, storeFails);
      && st' == st
      && resp.status == 400
      && resp.body.ValidationBody?
      && exists k ::
        && 0 <= k < |InsertColumns|
        && ColumnIssue(v, InsertColumns[k], body).Some?
        && resp.body.validation == ValidationError(ColumnIssue(v, InsertColumns[k], body).value.message, Some(Key(InsertColumns[k])))
        && forall j :: 0 <= j < k ==> ColumnIssue(v, InsertColumns[j], body).None?
  {
    ParseFailureNamesFirstFailingColumn(v, body);
    var issues := ParseInsert(v, body).error;
    JoinSingle(issues[0].path[0], ".");
    assert issues[0].path == [issues[0].path[0]];
  }

  /**
   * With the name and e-mail fields in order and `income` failing, the answer
   * is 400 with `income`'s issue, whatever the later fields hold.
   */
  lemma IncomeIssueIsReported(v: Validator, st: Store, body: Body, now: int, storeFails: bool)
    requires ColumnIssue(v, FirstName, body).None?
    requires ColumnIssue(v, LastName, body).None?
    requires ColumnIssue(v, Email, body).None?
    requires ColumnIssue(v, Income, body).Some?
    ensures HandleSubmit(v, st, JObject(body), now, storeFails) ==
      (Response(400, ValidationBody(ValidationError(ColumnIssue(v, Income, body).value.message, Some("income")))), st)
  {
    assert InsertColumns[0] == FirstName && InsertColumns[1] == LastName;
    assert InsertColumns[2] == Email && InsertColumns[3] == Income;
    FirstIssueAt(v, InsertColumns, body, 3);
    assert !AllColumnsPass(v, body);
    JoinSingle("income", ".");
  }

  /** With the name and e-mail fields in order, a body without `income` is answered 400 naming `income`. */
  lemma MissingIncomeIsReported(v: Validator, st: Store, body: Body, now: int, storeFails: bool)
    requires ColumnIssue(v, FirstName, body).None?
    requires ColumnIssue(v, LastName, body).None?
    requires ColumnIssue(v, Email, body).None?
    requires "income" !in body
    ensures HandleSubmit(v, st, JObject(body), now, storeFails).0 ==
      Response(400, ValidationBody(ValidationError(v.message(Income, None), Some("income"))))
  {
    assert ColumnIssue(v, Income, body) == Some(Issue(v.message(Income, None), ["income"]));
    IncomeIssueIsReported(v, st, body, now, storeFails);
  }

  /**
   * A body that is not an object, such as a JSON array, fails the parse at
   * the root: 400 with the library's message and the empty path joined, "".
   */
  lemma NonObjectBodyIsRejected(v: Validator, st: Store, req: Json, now: int, storeFails: bool)
    requires !req.JObject?
    ensures HandleSubmit(v, st, req, now, storeFails) ==
      (Response(400, ValidationBody(ValidationError(v.notObject(req), Some("")))), st)
  {
  }

  /** A store failure after a valid parse is answered 500 with only the fixed message. */
  lemma StoreFailureIsInternalError(v: Validator, st: Store, body: Body, now: int)
    requires ParseInsert(v, body).Success?
    ensures HandleSubmit(v, st, JObject(body), now, true) == (Response(500, InternalBody(InternalError("Internal server error"))), st)
  {
  }

  /** Every submit response is one the contract declares, except the 500, whose body is the internal error schema. */
  lemma SubmitResponsesFollowContract(v: Validator, st: Store, req: Json, now: int, storeFails: bool)
    ensures var resp := HandleSubmit(v, st, req, now, storeFails).0;
      Declared(SubmitLoan, resp.status, resp.body) || (resp.status == 500 && Matches(InternalSchema, resp.body))
  {
  }

  /** Every upload response is one the contract declares. */
  lemma UploadResponsesFollowContract(file: Option<UploadedFile>)
    ensures Declared(UploadFile, HandleUpload(file).status, HandleUpload(file).body)
  {
  }

  /** Submitting keeps ids distinct and every row pending. */
  lemma SubmitKeepsStoreValid(v: Validator, st: Store, req: Json, now: int, storeFails: bool)
    requires ValidStore(st) && AllPending(st)
    ensures ValidStore(HandleSubmit(v, st, req, now, storeFails).1)
    ensures AllPending(HandleSubmit(v, st, req, now, storeFails).1)
  {
  }

  /** The row a 201 returns is the row the store holds under its id, field for field. */
  lemma CreatedRowReadsBack(v: Validator, st: Store, body: Body, now: int)
    requires ValidStore(st) && ParseInsert(v, body).Success?
    ensures var (resp, st') := HandleSubmit(v, st, JObject(body), now, false);
      Lookup(st', resp.body.record.id) == Some(resp.body.record)
  {
    var (resp, st') := HandleSubmit(v, st, JObject(body), now, false);
    var row := resp.body.record;
    assert st'.rows == st.rows + [row];
    assert forall k :: 0 <= k < |st.rows| ==> st'.rows[k].id < row.id;
    LookupFindsUniqueId(st', |st.rows|);
  }

  /** In a store with strictly increasing ids, looking up a row's id finds that row. */
  lemma {:induction false} LookupFindsUniqueId(st: Store, k: nat)
    requires k < |st.rows|
    requires forall i, j :: 0 <= i < j < |st.rows| ==> st.rows[i].id < st.rows[j].id
    ensures Lookup(st, st.rows[k].id) == Some(st.rows[k])
    decreases k
  {
    if k > 0 {
      var tail := Store(st.rows[1..], st.nextId);
      assert st.rows[0].id < st.rows[k].id;
      assert tail.rows[k - 1] == st.rows[k];
      LookupFindsUniqueId(tail, k - 1);
    }
  }

  /** Requests handled one after another: each submit sees the store the previous ones left. */
  datatype Submission = Submission(body: Json, now: int, storeFails: bool)

  /** How many of `resps` answered 201. */
  function CountCreated(resps: seq<Response>): nat {
    if |resps| == 0 then 0 else (if resps[0].status == 201 then 1 else 0) + CountCreated(resps[1..])
  }

  /** The rows echoed by the 201 answers among `resps`, in order. */
  function CreatedRows(resps: seq<Response>): seq<LoanApplication> {
    if |resps| == 0 then []
    else
      var first := if resps[0].status == 201 && resps[0].body.RecordBody? then [resps[0].body.record] else [];
      first + CreatedRows(resps[1..])
  }

  /** Counting and collecting the 201 answers splits over the first answer. */
  lemma CreatedRowsCons(resp: Response, rest: seq<Response>)
    ensures CreatedRows([resp] + rest) == CreatedRows([resp]) + CreatedRows(rest)
    ensures CountCreated([resp] + rest) == CountCreated([resp]) + CountCreated(rest)
  {
    assert ([resp] + rest)[1..] == rest;
  }

  /** The rows appended by a first answer and by the answers after it add up to those of all the answers. */
  lemma AppendedRowsCompose(st: Store, resp: Response, st': Store, rest: seq<Response>, st'': Store)
    requires st'.rows == st.rows + CreatedRows([resp]) && |CreatedRows([resp])| == CountCreated([resp])
    requires st''.rows == st'.rows + CreatedRows(rest) && |st''.rows| == |st'.rows| + CountCreated(rest)
    ensures st''.rows == st.rows + CreatedRows([resp] + rest)
    ensures |st''.rows| == |st.rows| + CountCreated([resp] + rest)
  {
    CreatedRowsCons(resp, rest);
    assert st''.rows == st.rows + (CreatedRows([resp]) + CreatedRows(rest));
  }

  /** One submission appends exactly the row its answer echoes, if it answered 201, and nothing otherwise. */
  lemma SubmitAppendsCreatedRow(v: Validator, st: Store, req: Json, now: int, storeFails: bool)
    ensures var (resp, st') := HandleSubmit(v, st, req, now, storeFails);
      && st'.rows == st.rows + CreatedRows([resp])
      && |CreatedRows([resp])| == CountCreated([resp])
  {
    var (resp, st') := HandleSubmit(v, st, req, now, storeFails);
    assert [resp][1..] == [];
    if resp.status == 201 {
      assert CreatedRows([resp]) == [resp.body.record];
    } else {
      assert CreatedRows([resp]) == [];
    }
  }

  /**
   * One answer per request. Rows are only ever appended: the earlier table
   * survives as a prefix, followed by exactly the rows the 201 answers echo,
   * one per 201, in request order.
   */
  function SubmitAll(v: Validator, st: Store, subs: seq<Submission>): (r: (seq<Response>, Store))
    ensures |r.0| == |subs|
    ensures st.rows <= r.1.rows
    ensures r.1.rows == st.rows + CreatedRows(r.0)
    ensures |r.1.rows| == |st.rows| + CountCreated(r.0)
    decreases |subs|
  {
    if |subs| == 0 then ([], st)
    else
      var (resp, st') := HandleSubmit(v, st, subs[0].body, subs[0].now, subs[0].storeFails);
      var (rest, st'') := SubmitAll(v, st', subs[1..]);
      SubmitAppendsCreatedRow(v, st, subs[0].body, subs[0].now, subs[0].storeFails);
      AppendedRowsCompose(st, resp, st', rest, st'');
      ([resp] + rest, st'')
  }

  /** Starting from any valid table, every row any sequence of submissions creates has its own id and is pending. */
  lemma {:induction false} SubmissionsKeepIdsDistinct(v: Validator, st: Store, subs: seq<Submission>)
    requires ValidStore(st) && AllPending(st)
    ensures ValidStore(SubmitAll(v, st, subs).1) && AllPending(SubmitAll(v, st, subs).1)
    ensures forall i, j :: 0 <= i < j < |SubmitAll(v, st, subs).1.rows| ==>
      SubmitAll(v, st, subs).1.rows[i].id != SubmitAll(v, st, subs).1.rows[j].id
    decreases |subs|
  {
    if |subs| > 0 {
      var st' := HandleSubmit(v, st, subs[0].body, subs[0].now, subs[0].storeFails).1;
      SubmitKeepsStoreValid(v, st, subs[0].body, subs[0].now, subs[0].storeFails);
      SubmissionsKeepIdsDistinct(v, st', subs[1..]);
    }
  }

  /** The upload cap is 5 MiB. */
  lemma UploadCapIsFiveMebibytes()
    ensures MaxUploadBytes == 5242880
  {
  }
}

=== FILE: strings.dfy ===
/** The JavaScript string operations the source relies on, over `seq<char>`. */
module Strings {
  import opened Wrappers

  /** `pat` occurs in `s` starting at index `k`. */
  predicate OccursAt(s: string, pat: string, k: nat) {
    k + |pat| <= |s| && s[k..k + |pat|] == pat
  }

  /** `pat` occurs somewhere in `s` (the source's `s.includes(pat)`). */
  predicate Contains(s: string, pat: string) {
    exists k: nat :: k <= |s| && OccursAt(s, pat, k)
  }

  /** The first index at or after `from` where `pat` occurs. */
  function IndexFrom(s: string, pat: string, from: nat): (r: Option<nat>)
    decreases |s| - from
    ensures r.Some? ==> from <= r.value && OccursAt(s, pat, r.value)
    ensures r.Some? ==> forall j: nat :: from <= j < r.value ==> !OccursAt(s, pat, j)
    ensures r.None? ==> forall j: nat :: from <= j ==> !OccursAt(s, pat, j)
  {
    if from + |pat| > |s| then None
    else if s[from..from + |pat|] == pat then Some(from)
    else IndexFrom(s, pat, from + 1)
  }

  /** The first index where `pat` occurs, as `s.indexOf(pat)` finds it. */
  function IndexOf(s: string, pat: string): (r: Option<nat>)
    ensures r.Some? <==> Contains(s, pat)
    ensures r.Some? ==> OccursAt(s, pat, r.value)
    ensures r.Some? ==> forall j: nat :: j < r.value ==> !OccursAt(s, pat, j)
  {
    IndexFrom(s, pat, 0)
  }

  /** An occurrence with no earlier occurrence of the pattern's first character is the one `indexOf` finds. */
  lemma FirstOccurrenceAt(s: string, pat: string, k: nat)
    requires |pat| > 0 && OccursAt(s, pat, k)
    requires forall j :: 0 <= j < k ==> s[j] != pat[0]
    ensures IndexOf(s, pat) == Some(k) && Contains(s, pat)
  {
    forall j: nat | j < k ensures !OccursAt(s, pat, j) {
      if j + |pat| <= |s| {
        assert s[j..j + |pat|][0] == s[j];
      }
    }
  }

  /**
   * The replacement text that `String.prototype.replace` inserts when the
   * pattern is a string (so there are no capture groups), following the
   * GetSubstitution operation of ECMA-262 (section 22.1.3.19.1 in the 2023
   * edition): `$$` stands for `$`, `$&` for the matched text, `` $` `` for the
   * text before the match and `$'` for the text after it; any other `$` is kept.
   */
  function Substitution(matched: string, str: string, position: nat, replacement: string): (r: string)
    requires position + |matched| <= |str|
    ensures '$' !in replacement ==> r == replacement
    decreases |replacement|
  {
    if |replacement| == 0 then ""
    else if replacement[0] == '$' && |replacement| >= 2 then
      var rest := Substitution(matched, str, position, replacement[2..]);
      if replacement[1] == '$' then "$" + rest
      else if replacement[1] == '&' then matched + rest
      else if replacement[1] == '`' then str[..position] + rest
      else if replacement[1] == '\'' then str[position + |matched|..] + rest
      else "$" + Substitution(matched, str, position, replacement[1..])
    else
      assert '$' !in replacement ==> '$' !in replacement[1..] by {
        if '$' in replacement[1..] {
          var k :| 0 <= k < |replacement[1..]| && replacement[1..][k] == '$';
          assert replacement[k + 1] == '$';
        }
      }
      [replacement[0]] + Substitution(matched, str, position, replacement[1..])
  }

  /** `s.replace(pat, replacement)` with a string pattern: only the first occurrence is replaced. */
  function ReplaceFirst(s: string, pat: string, replacement: string): (r: string)
    ensures !Contains(s, pat) ==> r == s
    ensures '$' !in replacement ==> r == ReplaceFirstLiteral(s, pat, replacement)
  {
    match IndexOf(s, pat)
    case None => s
    case Some(k) => s[..k] + Substitution(pat, s, k, replacement) + s[k + |pat|..]
  }

  /** Replaces the first occurrence of `pat` by `replacement` taken literally. */
  function ReplaceFirstLiteral(s: string, pat: string, replacement: string): string {
    match IndexOf(s, pat)
    case None => s
    case Some(k) => s[..k] + replacement + s[k + |pat|..]
  }

  /** At the index `indexOf` finds, the literal replacement splices `replacement` in place of the match. */
  lemma ReplaceFirstLiteralAt(s: string, pat: string, replacement: string, k: nat)
    requires IndexOf(s, pat) == Some(k)
    ensures k + |pat| <= |s|
    ensures ReplaceFirstLiteral(s, pat, replacement) == s[..k] + replacement + s[k + |pat|..]
  {
  }

  /** At the index `indexOf` finds, `replace` splices the expanded replacement in place of the match. */
  lemma ReplaceFirstAt(s: string, pat: string, replacement: string, k: nat)
    requires IndexOf(s, pat) == Some(k)
    ensures k + |pat| <= |s|
    ensures ReplaceFirst(s, pat, replacement) == s[..k] + Substitution(pat, s, k, replacement) + s[k + |pat|..]
  {
  }

  /** Without an occurrence nothing changes; otherwise exactly the first occurrence is replaced. */
  lemma ReplaceFirstLiteralSpec(s: string, pat: string, replacement: string)
    ensures !Contains(s, pat) ==> ReplaceFirstLiteral(s, pat, replacement) == s
    ensures Contains(s, pat) ==> exists k: nat ::
      && OccursAt(s, pat, k)
      && (forall j: nat :: j < k ==> !OccursAt(s, pat, j))
      && ReplaceFirstLiteral(s, pat, replacement) == s[..k] + replacement + s[k + |pat|..]
  {
    var r := IndexOf(s, pat);
    if r.Some? {
      var k := r.value;
      ReplaceFirstLiteralAt(s, pat, replacement, k);
      assert && OccursAt(s, pat, k)
             && (forall j: nat :: j < k ==> !OccursAt(s, pat, j))
             && ReplaceFirstLiteral(s, pat, replacement) == s[..k] + replacement + s[k + |pat|..];
    }
  }

  /** Without an occurrence nothing changes; otherwise the first occurrence becomes the expanded replacement. */
  lemma ReplaceFirstSpec(s: string, pat: string, replacement: string)
    ensures !Contains(s, pat) ==> ReplaceFirst(s, pat, replacement) == s
    ensures Contains(s, pat) ==> exists k: nat ::
      && OccursAt(s, pat, k)
      && (forall j: nat :: j < k ==> !OccursAt(s, pat, j))
      && ReplaceFirst(s, pat, replacement) == s[..k] + Substitution(pat, s, k, replacement) + s[k + |pat|..]
  {
    var r := IndexOf(s, pat);
    if r.Some? {
      var k := r.value;
      ReplaceFirstAt(s, pat, replacement, k);
      assert && OccursAt(s, pat, k)
             && (forall j: nat :: j < k ==> !OccursAt(s, pat, j))
             && ReplaceFirst(s, pat, replacement) == s[..k] + Substitution(pat, s, k, replacement) + s[k + |pat|..];
    }
  }

  /** With a `$`-free replacement, the two forms of replacement agree. */
  lemma ReplaceFirstOfPlainText(s: string, pat: string, replacement: string)
    requires '$' !in replacement
    ensures ReplaceFirst(s, pat, replacement) == ReplaceFirstLiteral(s, pat, replacement)
  {
  }

  /** `parts.join(sep)`. */
  function Join(parts: seq<string>, sep: string): string {
    if |parts| == 0 then ""
    else if |parts| == 1 then parts[0]
    else parts[0] + sep + Join(parts[1..], sep)
  }

  /** Joining a one-element path yields that element, whatever the separator. */
  lemma JoinSingle(part: string, sep: string)
    ensures Join([part], sep) == part
  {
  }

  function DigitChar(d: nat): (c: char)
    requires d < 10
    ensures '0' <= c <= '9'
    ensures c as int - '0' as int == d
  {
    ('0' as int + d) as char
  }

  /** Decimal digits of a natural number, without leading zeros. */
  function NatToString(n: nat): (r: string)
    ensures |r| >= 1
    ensures forall k :: 0 <= k < |r| ==> '0' <= r[k] <= '9'
    ensures n >= 10 ==> r[0] != '0'
  {
    if n < 10 then [DigitChar(n)] else NatToString(n / 10) + [DigitChar(n % 10)]
  }

  /** `Number.MAX_SAFE_INTEGER`, 2^53 − 1. */
  const MaxSafeInteger: int := 0x1F_FFFF_FFFF_FFFF

  /**
   * The integers a JavaScript number holds exactly. Each is below 10^21, so
   * `String(n)` prints its decimal digits rather than an exponent form.
   */
  type SafeInteger = n: int | -MaxSafeInteger <= n <= MaxSafeInteger

  /** `String(n)` for an integral number. */
  function IntToString(n: SafeInteger): (r: string)
    ensures |r| >= 1
    ensures forall k :: 0 <= k < |r| ==> r[k] == '-' || '0' <= r[k] <= '9'
    ensures forall k :: 1 <= k < |r| ==> '0' <= r[k] <= '9'
    ensures n < 0 <==> r[0] == '-'
  {
    if n < 0 then "-" + NatToString(-n) else NatToString(n)
  }

  /** The value of the decimal digits `s`. */
  function DigitsValue(s: string): int
    requires forall k :: 0 <= k < |s| ==> '0' <= s[k] <= '9'
  {
    if |s| == 0 then 0 else 10 * DigitsValue(s[..|s| - 1]) + (s[|s| - 1] as int - '0' as int)
  }

  /** Reading the digits back gives the number: decimal printing loses nothing. */
  lemma {:induction false} NatToStringRoundTrip(n: nat)
    ensures DigitsValue(NatToString(n)) == n
  {
    if n >= 10 {
      NatToStringRoundTrip(n / 10);
      var s := NatToString(n);
      assert s[..|s| - 1] == NatToString(n / 10);
      assert s[|s| - 1] as int - '0' as int == n % 10;
    }
  }

  /** Reading a printed integer back, sign included, gives the integer. */
  lemma IntToStringRoundTrip(n: SafeInteger)
    ensures var r := IntToString(n);
      (if r[0] == '-' then -DigitsValue(r[1..]) else DigitsValue(r)) == n
  {
    if n < 0 {
      NatToStringRoundTrip(-n);
      assert IntToString(n)[1..] == NatToString(-n);
    } else {
      NatToStringRoundTrip(n);
    }
  }
}

=== FILE: wizard.dfy ===
/**
 * The application wizard (client/src/components/ApplicationForm.tsx): three
 * input steps and a terminal success step, driven by the Next, Back and
 * Submit buttons and by the form's inputs.
 *
 * Validation follows `formSchema`: income must coerce to a number of at least
 * 1 and `termsAccepted` must be literally true. Every other check the schema
 * makes on a text field is the abstract `Rules.textOk`, and `Number()` applied
 * to typed text is the abstract `Rules.toNumber` (`None` standing for NaN).
 * The upload and submit requests are inputs: each either yields its value or
 * throws.
 */
module Wizard {
  import opened Wrappers
  import Schema
  import Calculator

  /** The income field: the numeric default until the user types into it, then the typed text. */
  datatype IncomeInput = Preset(n: int) | Typed(text: string)

  /** The form's values as react-hook-form holds them. */
  datatype FormValues = FormValues(
    firstName: string,
    lastName: string,
    email: string,
    income: IncomeInput,
    amount: int,
    duration: int,
    currency: string,
    paymentMethodType: string,
    iban: string,
    termsAccepted: bool)

  /** The fields `formSchema` validates. */
  datatype FormField =
    | FirstName | LastName | Email | Income | Amount | Duration
    | Currency | PaymentMethodType | Iban | TermsAccepted

  /** A file the browser hands over; its contents are not modelled. */
  datatype File = File(name: string)

  /** The component's state: the step, the form values and the chosen file. */
  datatype Wizard = Wizard(step: nat, values: FormValues, file: Option<File>)

  /** The validation library's share: extra checks on text fields, and `Number()` on text. */
  datatype Rules = Rules(textOk: (FormField, string) -> bool, toNumber: string -> Option<real>)

  /** `z.coerce.number()` applied to the income field. */
  function Coerce(rules: Rules, income: IncomeInput): Option<real> {
    match income
    case Preset(n) => Some(n as real)
    case Typed(text) => rules.toNumber(text)
  }

  /** Whether `formSchema` reports no error for field `f`. */
  predicate FieldValid(rules: Rules, values: FormValues, f: FormField): (b: bool)
    ensures f == Amount || f == Duration ==> b
    ensures f == Income && values.income.Preset? ==> (b <==> values.income.n >= 1)
    ensures f == TermsAccepted ==> (b <==> values.termsAccepted)
  {
    match f
    case FirstName => rules.textOk(f, values.firstName)
    case LastName => rules.textOk(f, values.lastName)
    case Email => rules.textOk(f, values.email)
    case Income => Coerce(rules, values.income).Some? && Coerce(rules, values.income).value >= 1.0
    case Amount => true
    case Duration => true
    case Currency => rules.textOk(f, values.currency)
    case PaymentMethodType => rules.textOk(f, values.paymentMethodType)
    case Iban => rules.textOk(f, values.iban)
    case TermsAccepted => values.termsAccepted
  }

  const Step0Fields: seq<FormField> := [FirstName, LastName, Email, Income]
  const Step1Fields: seq<FormField> := [PaymentMethodType, Iban]

  /** `form.trigger(fields)`: every named field validates. */
  predicate Trigger(rules: Rules, values: FormValues, fields: seq<FormField>): (b: bool)
    ensures b <==> forall f :: f in fields ==> FieldValid(rules, values, f)
    ensures FullValid(rules, values) ==> b
  {
    forall k :: 0 <= k < |fields| ==> FieldValid(rules, values, fields[k])
  }

  /** The whole schema validates, as `form.handleSubmit` requires before calling `onSubmit`. */
  predicate FullValid(rules: Rules, values: FormValues): (b: bool)
    ensures b ==> values.termsAccepted
    ensures b ==> Coerce(rules, values.income).Some? && Coerce(rules, values.income).value >= 1.0
    ensures b ==> values.income != Preset(0)
  {
    var b := forall f: FormField :: FieldValid(rules, values, f);
    assert b ==> FieldValid(rules, values, Income) && FieldValid(rules, values, TermsAccepted);
    b
  }

  /** A freshly mounted form for the calculator's triple. */
  function Init(data: Calculator.LoanData): (w: Wizard)
    ensures w.step == 0 && w.file == None
    ensures w.values.amount == data.amount && w.values.duration == data.duration && w.values.currency == data.currency
    ensures w.values.income == Preset(0) && !w.values.termsAccepted
    ensures w.values.paymentMethodType == "bank_transfer" && w.values.iban == ""
  {
    Wizard(0, FormValues("", "", "", Preset(0), data.amount, data.duration, data.currency, "bank_transfer", "", false), None)
  }

  /** The income default 0 fails the minimum of 1, so a fresh form cannot leave step 0 untouched. */
  lemma FreshFormStaysOnPersonalInfo(rules: Rules, data: Calculator.LoanData)
    ensures NextStep(rules, Init(data)) == Init(data)
    ensures !FullValid(rules, Init(data).values)
  {
    assert Step0Fields[3] == Income;
    assert !FieldValid(rules, Init(data).values, Income);
  }

  /**
   * `nextStep`: steps 0 and 1 advance when their group of fields validates,
   * and otherwise nothing changes; any later step advances unconditionally.
   */
  function NextStep(rules: Rules, w: Wizard): (r: Wizard)
    ensures r.values == w.values && r.file == w.file
    ensures r.step == w.step || r.step == w.step + 1
    ensures w.step == 0 ==> (r.step == 1 <==>
      FieldValid(rules, w.values, FirstName) && FieldValid(rules, w.values, LastName) &&
      FieldValid(rules, w.values, Email) && FieldValid(rules, w.values, Income))
    ensures w.step == 1 ==> (r.step == 2 <==>
      FieldValid(rules, w.values, PaymentMethodType) && FieldValid(rules, w.values, Iban))
    ensures w.step >= 2 ==> r.step == w.step + 1
  {
    var valid :=
      if w.step == 0 then Trigger(rules, w.values, Step0Fields)
      else if w.step == 1 then Trigger(rules, w.values, Step1Fields)
      else true;
    assert w.step == 0 ==> (valid <==>
      FieldValid(rules, w.values, Step0Fields[0]) && FieldValid(rules, w.values, Step0Fields[1]) &&
      FieldValid(rules, w.values, Step0Fields[2]) && FieldValid(rules, w.values, Step0Fields[3]));
    assert w.step == 1 ==> (valid <==>
      FieldValid(rules, w.values, Step1Fields[0]) && FieldValid(rules, w.values, Step1Fields[1]));
    if valid then w.(step := w.step + 1) else w
  }

  /** What a handler asks of its parent. */
  datatype Effect = NoEffect | CallOnBack

  /** `prevStep`: at step 0 control goes back through `onBack`; later steps go back one. */
  function PrevStep(w: Wizard): (r: (Wizard, Effect))
    ensures r.0.values == w.values && r.0.file == w.file
    ensures w.step == 0 <==> r.1 == CallOnBack
    ensures w.step == 0 ==> r.0 == w
    ensures w.step > 0 ==> r.0.step + 1 == w.step
  {
    if w.step == 0 then (w, CallOnBack) else (w.(step := w.step - 1), NoEffect)
  }

  /** `handleFileChange`: the first chosen file replaces the earlier one; an empty choice keeps it. */
  function OnFileChange(w: Wizard, files: seq<File>): (r: Wizard)
    ensures r.step == w.step && r.values == w.values
    ensures |files| == 0 ==> r.file == w.file
    ensures |files| > 0 ==> r.file == Some(files[0])
  {
    if |files| > 0 then w.(file := Some(files[0])) else w
  }

  /** How a request made through the mutation hooks ends: with its value, or by throwing. */
  datatype Outcome<+T> = Succeeds(value: T) | Throws

  /**
   * The JSON body `onSubmit` sends: the validated values (so `termsAccepted`
   * is included and `status`, which the schema does not know, is not), the
   * coerced income, and `identityFileUrl`.
   */
  function Payload(rules: Rules, values: FormValues, fileUrl: string): (r: Schema.Body)
    requires FullValid(rules, values)
    ensures "status" !in r && "id" !in r && "createdAt" !in r
    ensures "termsAccepted" in r && r["termsAccepted"] == Schema.JBool(true)
  {
    assert FieldValid(rules, values, Income) && FieldValid(rules, values, TermsAccepted);
    map[
      "firstName" := Schema.JString(values.firstName),
      "lastName" := Schema.JString(values.lastName),
      "email" := Schema.JString(values.email),
      "income" := Schema.JNumber(Coerce(rules, values.income).value),
      "amount" := Schema.JNumber(values.amount as real),
      "duration" := Schema.JNumber(values.duration as real),
      "currency" := Schema.JString(values.currency),
      "paymentMethodType" := Schema.JString(values.paymentMethodType),
      "iban" := Schema.JString(values.iban),
      "termsAccepted" := Schema.JBool(values.termsAccepted),
      "identityFileUrl" := Schema.JString(fileUrl)
    ]
  }

  /** What pressing Submit did: the file uploaded, the body sent, and the resulting state. */
  datatype SubmitRun = SubmitRun(uploaded: Option<File>, sent: Option<Schema.Body>, next: Wizard)

  /**
   * `form.handleSubmit(onSubmit)`: nothing happens unless the whole schema
   * validates; then the chosen file, if any, is uploaded, the body is sent with
   * the upload's url (or "" without a file), and only when both requests
   * succeed does the wizard reach step 3. A throwing request is caught and
   * leaves the wizard as it was.
   */
  function Submit(rules: Rules, w: Wizard, upload: Outcome<string>, submit: Outcome<()>): (r: SubmitRun)
    requires w.step < 3
    ensures r.next.values == w.values && r.next.file == w.file
    ensures r.next.step == 3 || r.next == w
    ensures r.next.step == 3 <==> FullValid(rules, w.values) && (w.file.None? || upload.Succeeds?) && submit.Succeeds?
    ensures r.uploaded.Some? <==> FullValid(rules, w.values) && w.file.Some?
    ensures r.uploaded.Some? ==> r.uploaded == w.file
    ensures r.sent.Some? <==> FullValid(rules, w.values) && (w.file.None? || upload.Succeeds?)
    ensures r.sent.Some? ==> r.sent.value == Payload(rules, w.values, if w.file.Some? then upload.value else "")
  {
    if !FullValid(rules, w.values) then SubmitRun(None, None, w)
    else
      var fileUrl: Option<string> :=
        match w.file
        case None => Some("")
        case Some(_) => if upload.Succeeds? then Some(upload.value) else None;
      if fileUrl.None? then SubmitRun(w.file, None, w)
      else
        var body := Payload(rules, w.values, fileUrl.value);
        if submit.Succeeds? then SubmitRun(w.file, Some(body), w.(step := 3))
        else SubmitRun(w.file, Some(body), w)
  }

  /**
   * Whatever is sent carries the upload's url, or "" without a file, accepted
   * terms and an income of at least 1.
   */
  lemma SentBodyCarriesUploadUrl(rules: Rules, w: Wizard, upload: Outcome<string>, submit: Outcome<()>)
    requires w.step < 3
    ensures var r := Submit(rules, w, upload, submit);
      r.sent.Some? ==>
        && r.sent.value["identityFileUrl"] == Schema.JString(if w.file.Some? then upload.value else "")
        && r.sent.value["termsAccepted"] == Schema.JBool(true)
        && r.sent.value["income"].JNumber? && r.sent.value["income"].n >= 1.0
  {
    var r := Submit(rules, w, upload, submit);
    if r.sent.Some? {
      assert FieldValid(rules, w.values, TermsAccepted);
      assert FieldValid(rules, w.values, Income);
    }
  }

  /** Success requires terms accepted and an income that coerces to at least 1. */
  lemma SuccessNeedsTermsAndIncome(rules: Rules, w: Wizard, upload: Outcome<string>, submit: Outcome<()>)
    requires w.step < 3 && Submit(rules, w, upload, submit).next.step == 3
    ensures w.values.termsAccepted
    ensures Coerce(rules, w.values.income).Some? && Coerce(rules, w.values.income).value >= 1.0
  {
    assert FieldValid(rules, w.values, TermsAccepted);
    assert FieldValid(rules, w.values, Income);
  }

  /** What the user can do. */
  datatype Event =
    | EditText(field: FormField, text: string)
    | ChooseMethod(value: string)
    | SetTerms(checked: bool)
    | ChooseFiles(files: seq<File>)
    | Next
    | Back
    | SubmitClicked(upload: Outcome<string>, submit: Outcome<()>)

  /** A text input sets its field; the income input holds its text until validation coerces it. */
  function Edit(values: FormValues, f: FormField, text: string): FormValues {
    match f
    case FirstName => values.(firstName := text)
    case LastName => values.(lastName := text)
    case Email => values.(email := text)
    case Income => values.(income := Typed(text))
    case Iban => values.(iban := text)
    case _ => values
  }

  /**
   * The controls each step renders: the personal fields and the file input on
   * step 0, the IBAN and the one enabled radio on step 1, the terms checkbox
   * on step 2; Next below step 2, Submit on step 2, Back on every input step,
   * and nothing on step 3.
   */
  predicate Enabled(w: Wizard, e: Event): (b: bool)
    ensures w.step == 3 ==> !b
    ensures e.Back? ==> (b <==> w.step < 3)
    ensures e.Next? || e.SubmitClicked? ==> (b <==> w.step < 3 && (e.Next? <==> w.step < 2))
  {
    w.step < 3 &&
    match e
    case EditText(f, _) => (w.step == 0 && f in {FirstName, LastName, Email, Income}) || (w.step == 1 && f == Iban)
    case ChooseMethod(value) => w.step == 1 && value == "bank_transfer"
    case SetTerms(_) => w.step == 2
    case ChooseFiles(_) => w.step == 0
    case Next => w.step < 2
    case Back => true
    case SubmitClicked(_, _) => w.step == 2
  }

  /** The effect of one event. */
  function Dispatch(rules: Rules, w: Wizard, e: Event): (r: (Wizard, Effect))
    requires w.step < 3
    ensures r.1 == CallOnBack <==> e.Back? && w.step == 0
  {
    match e
    case EditText(f, text) => (w.(values := Edit(w.values, f, text)), NoEffect)
    case ChooseMethod(value) => (w.(values := w.values.(paymentMethodType := value)), NoEffect)
    case SetTerms(checked) => (w.(values := w.values.(termsAccepted := checked)), NoEffect)
    case ChooseFiles(files) => (OnFileChange(w, files), NoEffect)
    case Next => (NextStep(rules, w), NoEffect)
    case Back => PrevStep(w)
    case SubmitClicked(upload, submit) => (Submit(rules, w, upload, submit).next, NoEffect)
  }

  /** What the wizard keeps: a step within 0..3, the calculator's triple, and the only enabled payment method. */
  predicate Inv(w: Wizard, data: Calculator.LoanData) {
    && w.step <= 3
    && w.values.amount == data.amount
    && w.values.duration == data.duration
    && w.values.currency == data.currency
    && w.values.paymentMethodType == "bank_transfer"
  }

  lemma InitEstablishesInv(data: Calculator.LoanData)
    ensures Inv(Init(data), data)
  {
  }

  /** Every enabled event keeps the invariant; Next keeps the step below 3 and moves at most one step. */
  lemma DispatchKeepsInv(rules: Rules, w: Wizard, e: Event, data: Calculator.LoanData)
    requires Inv(w, data) && Enabled(w, e)
    ensures Inv(Dispatch(rules, w, e).0, data)
    ensures e.Next? ==> Dispatch(rules, w, e).0.step <= 2
  {
  }

  /** Step 3 offers no control: the success view is terminal. */
  lemma SuccessIsTerminal(w: Wizard, e: Event)
    requires w.step == 3
    ensures !Enabled(w, e)
  {
  }

  /** Only a Submit whose requests all succeed reaches step 3. */
  lemma ReachSuccessOnlyBySubmit(rules: Rules, w: Wizard, e: Event)
    requires Enabled(w, e) && Dispatch(rules, w, e).0.step == 3
    ensures e.SubmitClicked? && e.submit.Succeeds?
    ensures FullValid(rules, w.values) && (w.file.None? || e.upload.Succeeds?)
  {
  }

  /** Back never touches the values or the file. */
  lemma BackKeepsValues(rules: Rules, w: Wizard)
    requires w.step < 3
    ensures Dispatch(rules, w, Back).0.values == w.values && Dispatch(rules, w, Back).0.file == w.file
  {
  }

  /**
   * A session inside the form: enabled events are applied in order, disabled
   * ones ignored, and the session ends at the first Back on step 0, which
   * hands control to `onBack`.
   */
  datatype Session = Session(final: Wizard, leftForm: bool)

  function Run(rules: Rules, w: Wizard, events: seq<Event>): (r: Session)
    decreases |events|
  {
    if |events| == 0 then Session(w, false)
    else if !Enabled(w, events[0]) then Run(rules, w, events[1..])
    else
      var (next, effect) := Dispatch(rules, w, events[0]);
      if effect == CallOnBack then Session(next, true) else Run(rules, next, events[1..])
  }

  /** Any session from a fresh form keeps the invariant. */
  lemma {:induction false} RunKeepsInv(rules: Rules, w: Wizard, events: seq<Event>, data: Calculator.LoanData)
    requires Inv(w, data)
    ensures Inv(Run(rules, w, events).final, data)
    decreases |events|
  {
    if |events| > 0 {
      if Enabled(w, events[0]) {
        DispatchKeepsInv(rules, w, events[0], data);
        RunKeepsInv(rules, Dispatch(rules, w, events[0]).0, events[1..], data);
      } else {
        RunKeepsInv(rules, w, events[1..], data);
      }
    }
  }

  /** Once at step 3 a session stays there. */
  lemma {:induction false} SuccessIsFinal(rules: Rules, w: Wizard, events: seq<Event>)
    requires w.step == 3
    ensures Run(rules, w, events) == Session(w, false)
    decreases |events|
  {
    if |events| > 0 {
      SuccessIsTerminal(w, events[0]);
      SuccessIsFinal(rules, w, events[1..]);
    }
  }
}

=== FILE: wrappers.dfy ===
/** Failure-carrying datatypes shared by the rest of the model. */
module Wrappers {

  /** A value that may be missing (the source's `null`). */
  datatype Option<+T> = None | Some(value: T)

  /** The outcome of an operation that either yields a value or fails with an error. */
  datatype Result<+T, +E> = Success(value: T) | Failure(error: E)
}
